=== FILE: README.md ===
# MazeSolver in Dafny

A model of `MazeSolver` (main.py), a depth-first maze solver. A maze is a
grid of characters. Four configurable sentinel characters mark walls, the
path travelled, the start and the finish. `run` pushes the start coordinate
onto a stack. Then it repeatedly pops a coordinate:

- if that cell holds the finish character, it returns True;
- if the cell already holds the path character, it skips it;
- otherwise it overwrites the cell with the path character and pushes the
  neighbours that pass a wall test and a bounds test (down, up, right, left).

An `IndexError` inside the loop ends it with False. `toString` renders the
maze one row per line.

Modules:

| module | file | contents |
|---|---|---|
| `Grids` | grid.dfy | grid, coordinates, Python list indexing, in-place marking, the count of unmarked cells |
| `Text` | text.dfy | `toString`, `get_height`, `get_width`, and the line handling of the file-loading constructor |
| `Config` | config.dfy | the sentinel characters, their getters and setters, and a setter that keeps them distinct |
| `Maze` | solver.dfy | the solver state, the constructor, `_check_input`, one loop iteration, the loop, `run` |
| `MazeProperties` | properties.dfy | what a run does to the maze |
| `MazeFindings` | findings.dfy | two defects of the neighbour tests and one of the setters, each on a concrete maze |
| `SearchCompleteness` | completeness.dfy | the corrected search finds every reachable finish |
| `SearchSoundness` | soundness.dfy | the search, as written or corrected, reports success only for a reachable finish |

How the Python semantics are modelled:

- **Indexing.** A read `maze[r][c]` follows Python list indexing. A negative
  index counts from the end. An index outside `[-n, n)` raises `IndexError`,
  modelled as `None` (`Grids.Cell`).
- **Neighbour tests.** Each neighbour is *read before* its bounds test, as
  Python's left-to-right `and` does. A failing read ends the run with False,
  and so does popping an empty stack.
- **The stack.** It is an attribute of the instance, so a second `run`
  starts from whatever the first one left on it.
- **`_check_input`.** Its read is outside the `try`, so an out-of-range start
  raises out of `run` (`Maze.Outcome.Raised`).
- **Bounds policy.** The neighbour test is a parameter `Maze.Bounds`:
  - `AsWritten` is main.py:142-149 exactly;
  - `Checked` is the corrected test: a neighbour is pushed exactly when it
    lies in the maze and is not a wall, and nothing out of range is read.

  Every general property in `MazeProperties` holds for both policies, and
  so does soundness (`SearchSoundness.RunSound`).
- **Termination.** The loop terminates under either policy. Each iteration
  either writes the path character into one more cell or leaves the maze
  alone and shortens the stack (`Maze.Step`, `Maze.Loop`).

## Model

| member | source | states |
|---|---|---|
| Config.GetChar | main.py:39-44 | a getter returns the sentinel as a one-character string (the same for `get_path_char`, `get_start_char`, `get_finish_char` at main.py:57-98) |
| Config.SetCharDistinct | main.py:100-109 | corrected setter: accepts exactly the one-character candidates no other sentinel holds, reads them back, changes nothing else, and keeps distinct sentinels distinct |
| Config.SetChar | main.py:46-109 | a setter accepts exactly the one-character candidates; after acceptance the matching getter returns the candidate; the other three sentinels never change; a rejected candidate changes nothing |
| Text.Height | main.py:25-30 | `get_height` is zero exactly when `get_width` raises |
| Text.LoadHeight | main.py:18-30 | after loading a file, `get_height` counts its lines: one per newline, plus a last line that lacks one |
| Text.Width | main.py:32-37 | `get_width` has a value exactly when the maze has a row (an empty maze raises `IndexError`) |
| Text.RenderLength | main.py:157-167 | `toString` has one character per cell plus one newline per row |
| Text.RenderRectangular | main.py:157-167 | on a rectangular maze, `toString` has length `get_height * (get_width + 1)` |
| Text.ReadLinesSpec | main.py:20 | the lines `readlines` returns concatenate back to the file's text; none is empty; no line holds a newline before its last character; all but the last end in a newline |
| Text.RemoveNewlines | main.py:21 | the result has no newline, and a line without newlines is unchanged |
| Text.StripLines | main.py:21 | one row per line, row i being line i with its newlines removed, so no row holds a newline |
| Text.LoadRender | main.py:18-21 | loading the text `toString` produces gives back the maze, when no cell holds a newline |
| Text.RenderLoadAll | main.py:18-21 | `toString` of a maze loaded from any text reproduces that text, with a newline added when its last line lacks one |
| Text.RenderLoad | main.py:18-21 | `toString` of a maze loaded from text that ends in a newline reproduces that text |
| MazeProperties.RenderAfterLoad | main.py:157-167 | right after construction from a file, `toString` returns the file's text as read in text mode (newlines already translated), with a newline added when the last line lacks one; so exactly the text when it ends in a newline |
| Grids.PyIndex | main.py:117 | a Python index selects an element exactly when it lies in `[-n, n)`; it selects the element at the index modulo n, so a non-negative index selects itself and -1 the last element |
| Grids.Locate | main.py:134 | a successful read reaches an in-range cell, the row index taken modulo the height and the column index modulo that row's length; an in-range coordinate reaches itself |
| Grids.Put | main.py:141 | the assignment keeps the maze's shape and changes exactly the one cell the read reached |
| Grids.PutMarks | main.py:141 | writing the path character into a cell not holding it lowers the count of unmarked cells by one |
| Maze.New | main.py:5-17 | the constructor given an array keeps the start and the array, starts with an empty stack, and sets the default sentinels, which are distinct |
| Maze.NewFromText | main.py:5-21 | the constructor given a file starts with an empty stack and distinct default sentinels, and holds one row per line of the file, each with its newlines removed |
| Maze.CheckInput | main.py:112-120 | `_check_input` raises exactly when the start cannot be read, and succeeds exactly when the start cell holds the start character |
| Maze.Expand | main.py:142-149 | at most four pushes; each is adjacent, readable and not a wall. As written, a move up or left never reaches row 0 or column 0. Corrected, nothing raises and every push is in range |
| Maze.ExpandInRange | main.py:142-149 | from an in-range cell, every push under either policy is in range and not a wall: as written, down and right start from non-negative indices and their read succeeded, and up and left passed their `> 0` tests |
| Maze.ExpandOrder | main.py:142-149 | with no fault, the pushes are down, up, right, left in that order, each present exactly when its test passes |
| Maze.ExpandFaults | main.py:142-151 | as written, the expansion raises exactly when one of the four neighbours cannot be read |
| Maze.ExpandChecked | main.py:142-149 | corrected, every in-range neighbour that is not a wall is pushed |
| Maze.Mark | main.py:140-149 | marking rewrites only the popped cell, to the path character, and leaves the rest of the stack with the expansion of the marked cell pushed on top |
| Maze.Step | main.py:130-155 | an empty stack ends the run unsolved; an unreadable popped cell ends it unsolved with the coordinate popped; the iteration succeeds exactly when the popped cell holds the finish character and leaves that cell alone; an already-marked cell is skipped; marking any other cell ends the run exactly when a neighbour read of the marked maze raises; only the popped cell changes; every continuing iteration makes progress |
| Maze.Loop | main.py:130-155 | the loop terminates and keeps the sentinels and the start |
| Maze.Run | main.py:122-155 | an unreadable start raises and a wrong start returns None, both leaving the solver unchanged; a valid start always returns True or False; the sentinels and start are kept |
| Maze.Solve | main.py:127-155 | the `while` loop computes exactly what `Run` defines |
| MazeProperties.LoopTrace | main.py:130-155 | the loop writes only the path character, and never over a finish cell |
| MazeProperties.RunMarksOnlyPath | main.py:133-149 | `run` keeps the maze's shape and changes cells only to the path character; finish cells keep the finish character |
| MazeProperties.LoopSolvedAtFinish | main.py:134-137 | the loop succeeds only with a finish cell in the maze |
| MazeProperties.RunSolvedNeedsFinish | main.py:134-137 | `run` returns True only when the maze holds a finish character, and when path and finish differ, that finish was there before the run |
| MazeProperties.StepKeepsWalls | main.py:140-149 | one iteration overwrites no wall, and pushes no coordinate that reads as a wall |
| MazeProperties.RunKeepsWalls | main.py:122-155 | `run` leaves every wall standing when the path mark is itself the wall character, and otherwise when the start character is not the wall character and no stacked coordinate reads as a wall |
| MazeProperties.FreshRunKeepsWalls | main.py:122-155 | the first run of a newly constructed solver leaves every wall standing |
| MazeFindings.LastRowReadFails | main.py:142-151 | as written, `[list("SF")]` from (0, 0) returns False; corrected, it returns True |
| MazeFindings.TopRowUnreachable | main.py:144-149 | as written, `[list("*F*"), list("*S*"), list("***")]` from (1, 1) returns False; corrected, it returns True |
| MazeFindings.SharedMarkSolvesNothing | main.py:100-109 | `set_finish_char("o")` is accepted, making the finish the path character; on `[list("****"), list("*S.*"), list("****")]` from (1, 1), which holds no finish cell, `run` as written returns True |
| MazeFindings.SharedMarkCheckedToo | main.py:134-149 | on the same maze and sentinels, the corrected neighbour test returns True too |
| SearchCompleteness.CheckedRunFindsReachableFinish | main.py:122-155 | corrected, `run` returns True whenever a route of non-wall cells leads from the start to a finish cell |
| SearchSoundness.RunSound | main.py:122-155 | as written and corrected alike, `run` returns True only when such a route exists, as its docstring promises (main.py:125) |
| SearchSoundness.FreshRunSound | main.py:5-155 | the first run of a newly constructed solver from an in-range start, under either test, returns True only when a finish cell is reachable |
| SearchSoundness.DistinctRunSound | main.py:122-155 | with four distinct sentinels, `run` under either test returns True only when a finish cell is reachable from an in-range start on a fresh stack |
| SearchSoundness.CheckedRunDecides | main.py:122-155 | corrected, `run` on a fresh solver returns True exactly when a finish cell is reachable from the start |

## Left out

- Opening and reading the file (main.py:19-20): the constructor from a file
  takes the file's text as a parameter (`Maze.NewFromText`). `readlines`
  and `replace` are modelled as functions on that text.
- That text is the file's content as Python's text mode delivers it:
  decoded, and with universal newlines already translated, so `\r\n` and a
  lone `\r` have become `\n`. Decoding and newline translation are not
  modelled. `Maze.NewFromText` and `MazeProperties.RenderAfterLoad` speak
  of the translated text, not the bytes on disk.
- The `print` diagnostics (main.py:118, 135, 153) and the commented-out
  `print` are output only. They are not modelled.
- The `__main__` runner (main.py:170-178) reads files from disk. It is not
  part of this model.
- Aliasing is not modelled. The array passed to the constructor
  (main.py:23) is shared with the caller in Python, so the caller sees the
  path marks. The model uses values, so the marked maze is the returned
  solver's `maze`. Rows may also alias each other, as in a maze built with
  `[row] * n`. Then the write at main.py:141 marks that column in every
  aliased row, and those cells are later skipped as already on the path.
  The model treats every row as a separate list, so it does not reproduce
  this.
- The constructor's choice between its inputs (main.py:18) is modelled
  as two functions, `Maze.New` for an array and `Maze.NewFromText` for a
  file. Passing neither makes `open(None)` raise `TypeError`. That case is
  not modelled.
- Dynamic typing is not modelled:
  - a row given as a Python string makes the assignment at main.py:141
    raise `TypeError`; rows are modelled as mutable character lists;
  - a setter given a one-element list passes its `len` test;
  - `startPos` and cells of other types are not modelled.
- Maze.Run: on an invalid start it returns None, because the Python method
  falls off its end, although its docstring promises False. The model
  follows the code.
- Maze.Expand: as written, a move up never reaches row 0 and a move left
  never reaches column 0. A move down or right still can: from row -1 or
  column -1, which Python reads as the last row or column. So the contract
  states the rule for up and left moves only.
- Config.GetChar: the four getters and setters are modelled through one
  function per kind, taking the sentinel's role. `GetWallChar` through
  `SetFinishChar` are the one-line wrappers.
- MazeProperties.RunKeepsWalls: when the path character is not the wall
  character, needs the start character to differ from the wall character
  and no stacked coordinate to read as a wall. When the wall character
  equals the start character, the start cell passes `_check_input` and is
  itself overwritten with the path character at main.py:141. A stacked
  coordinate that reads as a wall is marked like any other cell.
- SearchCompleteness.CheckedRunFindsReachableFinish: needs a maze with no
  path marks yet. Such marks, left by an earlier run for instance, are
  skipped, so they can cut a route. It also needs the path character to
  differ from the wall character, because the proof tells marked cells
  from walls by their character. With no path marks in the maze, that
  leaves out only mazes holding no wall at all. Its other condition,
  `path != finish`, follows from the rest: the route ends on a finish
  cell and the maze holds no path mark.
- SearchSoundness.RunSound: covers only an empty stack, an in-range
  start, a start character that is not the wall character, and a path
  character that is not the finish character.
  - Entries left from an earlier run, or a negative start that Python
    wraps around, make the search expand cells that are not neighbours of
    anything reachable.
  - When the start character is the wall character, the start cell reads
    as a wall, so no route of non-wall cells begins there. The search
    still expands it and can find a finish next to it.
  - When the path character is the finish character, which the setters
    accept, a marked cell pushed back onto the stack passes the finish test
    at main.py:134. `run` then returns True with no finish cell in the
    maze (`MazeFindings.SharedMarkSolvesNothing`), so the promise of the
    docstring at main.py:125 fails. `SearchSoundness.DistinctRunSound`
    states soundness for distinct sentinels.
- SearchSoundness.CheckedRunDecides: holds under the conditions of both
  directions together: a fresh stack, no path marks, an in-range start
  holding the start character, and wall, path and finish characters that
  differ where those two lemmas need them to.

## Findings

| source | as written | input that shows it | evidently intended | confidence | as-written member | corrected member |
|---|---|---|---|---|---|---|
| main.py:142-151 | each neighbour is read before its bounds test, so a cell in the last row or last column raises `IndexError`; the handler meant for the empty stack then returns False | maze `[list("SF")]` (the file text `"SF\n"`), start (0, 0): the read below the start raises, so the finish to its right is never pushed | test `0 <= i+1 < height` (and likewise for columns) before reading | not executed; high | MazeFindings.LastRowReadFails | SearchCompleteness.CheckedRunFindsReachableFinish |
| main.py:144-149 | `i - 1 > 0` and `j - 1 > 0` reject a move up into row 0 and a move left into column 0 | maze `[list("*F*"), list("*S*"), list("***")]`, start (1, 1): the finish directly above is never pushed | `i - 1 >= 0` and `j - 1 >= 0` | not executed; high | MazeFindings.TopRowUnreachable | SearchSoundness.CheckedRunDecides |
| main.py:100-109 | the setters accept any one-character string, so `set_finish_char` takes the path character `o`; a marked cell pushed back as a neighbour then passes the finish test at main.py:134 | sentinels set by `set_finish_char("o")`, maze `[list("****"), list("*S.*"), list("****")]`, start (1, 1): the start is marked, its right neighbour is marked and pushes the start back, which now reads as the finish, so `run` returns True although the maze has no finish cell | a setter refuses a character another sentinel already holds, so `run` returns True only for a reachable finish | not executed; medium | MazeFindings.SharedMarkSolvesNothing | Config.SetCharDistinct |

=== FILE: completeness.dfy ===
/** With the corrected neighbour test, the search is complete: whenever a
    finish cell can be reached from the start through cells that are not
    walls, `run` returns True. */
module SearchCompleteness {
  import opened Grids
  import opened Maze
  import opened MazeProperties

  /** `p` is a walk through in-range non-wall cells of `g`, each step to one
      of the four neighbours. */
  predicate Route(g: Grid, wall: char, p: seq<Coord>)
  {
    && |p| > 0
    && (forall i :: 0 <= i < |p| ==> InRange(g, p[i]) && At(g, p[i]) != wall)
    && (forall i :: 0 <= i < |p| - 1 ==> Adjacent(p[i], p[i + 1]))
  }

  /** The neighbour `n` of a marked cell is out of range, a wall, marked, or
      still waiting on the stack. */
  predicate Covered(s: Solver, n: Coord)
  {
    !InRange(s.maze, n) || At(s.maze, n) == s.chars.wall || At(s.maze, n) == s.chars.path || n in s.stack
  }

  ghost predicate Closed(s: Solver)
  {
    forall v :: InRange(s.maze, v) && At(s.maze, v) == s.chars.path ==>
      Covered(s, Neighbour(v, Down)) && Covered(s, Neighbour(v, Up))
      && Covered(s, Neighbour(v, Right)) && Covered(s, Neighbour(v, Left))
  }

  predicate StackInRange(s: Solver)
  {
    forall k :: 0 <= k < |s.stack| ==> InRange(s.maze, s.stack[k])
  }

  /** The invariant of the corrected search, relative to the maze `g0` it
      started on. */
  ghost predicate SearchInv(g0: Grid, s: Solver)
  {
    && Trace(g0, s.maze, s.chars.path, s.chars.finish)
    && StackInRange(s)
    && Closed(s)
    && InRange(s.maze, s.startPos)
    && (At(s.maze, s.startPos) == s.chars.path || s.startPos in s.stack)
  }

  lemma InRangeShape(g: Grid, h: Grid, p: Coord)
    requires SameShape(g, h)
    ensures InRange(g, p) <==> InRange(h, p)
  {
  }

  /** `n` follows `s` by an iteration that popped the top, left it (or made
      it) a marked cell, changed no other cell and kept the rest of the
      stack. */
  ghost predicate Carried(s: Solver, n: Solver)
  {
    && |s.stack| > 0 && InRange(s.maze, Top(s))
    && n.chars == s.chars && SameShape(s.maze, n.maze)
    && InRange(n.maze, Top(s)) && At(n.maze, Top(s)) == s.chars.path
    && (forall p :: InRange(s.maze, p) && p != Top(s) ==> At(n.maze, p) == At(s.maze, p))
    && (forall e :: e in Pop(s).stack ==> e in n.stack)
  }

  /** Coverage survives such an iteration. */
  lemma CoveredCarries(s: Solver, n: Solver, m: Coord)
    requires Carried(s, n) && Covered(s, m)
    ensures Covered(n, m)
  {
    InRangeShape(s.maze, n.maze, m);
    if m in s.stack && m != Top(s) {
      assert s.stack == Pop(s).stack + [Top(s)];
      assert m in Pop(s).stack;
    }
  }

  /** The marked cells stay closed when the popped cell's neighbours are
      covered afterwards. */
  lemma ClosedCarries(s: Solver, n: Solver)
    requires Closed(s) && Carried(s, n)
    requires forall d: Dir :: Covered(n, Neighbour(Top(s), d))
    ensures Closed(n)
  {
    forall v | InRange(n.maze, v) && At(n.maze, v) == n.chars.path
      ensures Covered(n, Neighbour(v, Down)) && Covered(n, Neighbour(v, Up))
           && Covered(n, Neighbour(v, Right)) && Covered(n, Neighbour(v, Left))
    {
      if v != Top(s) {
        InRangeShape(s.maze, n.maze, v);
        CoveredCarries(s, n, Neighbour(v, Down));
        CoveredCarries(s, n, Neighbour(v, Up));
        CoveredCarries(s, n, Neighbour(v, Right));
        CoveredCarries(s, n, Neighbour(v, Left));
      } else {
        assert Covered(n, Neighbour(Top(s), Down)) && Covered(n, Neighbour(Top(s), Up));
        assert Covered(n, Neighbour(Top(s), Right)) && Covered(n, Neighbour(Top(s), Left));
      }
    }
  }

  /** The start stays marked or stacked, and the stack in range. */
  lemma StartCarries(s: Solver, n: Solver)
    requires Carried(s, n) && StackInRange(s) && InRange(s.maze, s.startPos) && n.startPos == s.startPos
    requires At(s.maze, s.startPos) == s.chars.path || s.startPos in s.stack
    requires forall k :: |Pop(s).stack| <= k < |n.stack| ==> InRange(n.maze, n.stack[k])
    requires |Pop(s).stack| <= |n.stack| && n.stack[..|Pop(s).stack|] == Pop(s).stack
    ensures InRange(n.maze, n.startPos) && (At(n.maze, n.startPos) == n.chars.path || n.startPos in n.stack)
    ensures StackInRange(n)
  {
    InRangeShape(s.maze, n.maze, s.startPos);
    assert s.stack == Pop(s).stack + [Top(s)];
    if s.startPos in s.stack && s.startPos != Top(s) {
      assert s.startPos in Pop(s).stack;
    }
    forall k | 0 <= k < |n.stack|
      ensures InRange(n.maze, n.stack[k])
    {
      if k < |Pop(s).stack| {
        assert n.stack[k] == Pop(s).stack[k] == s.stack[k];
        InRangeShape(s.maze, n.maze, s.stack[k]);
      }
    }
  }

  /** The corrected iteration that skips a marked cell keeps the invariant. */
  lemma SkipKeepsInv(g0: Grid, s: Solver)
    requires SearchInv(g0, s) && |s.stack| > 0 && InRange(s.maze, Top(s))
    requires At(s.maze, Top(s)) == s.chars.path
    ensures StackInRange(Pop(s)) && Closed(Pop(s))
    ensures At(s.maze, s.startPos) == s.chars.path || s.startPos in Pop(s).stack
  {
    var n := Pop(s);
    assert Carried(s, n);
    forall d: Dir ensures Covered(n, Neighbour(Top(s), d)) {
      CoveredCarries(s, n, Neighbour(Top(s), d));
    }
    ClosedCarries(s, n);
    assert n.stack[..|Pop(s).stack|] == Pop(s).stack;
    StartCarries(s, n);
  }

  /** The corrected iteration that marks the popped cell keeps the
      invariant. */
  lemma MarkKeepsInv(g0: Grid, s: Solver)
    requires SearchInv(g0, s) && |s.stack| > 0 && InRange(s.maze, Top(s))
    requires At(s.maze, Top(s)) != s.chars.path && At(s.maze, Top(s)) != s.chars.finish
    ensures Cell(s.maze, Top(s)) == Some(At(s.maze, Top(s)))
    ensures StackInRange(After(Mark(Checked, s))) && Closed(After(Mark(Checked, s)))
    ensures At(After(Mark(Checked, s)).maze, s.startPos) == s.chars.path || s.startPos in After(Mark(Checked, s)).stack
  {
    var loc := Top(s);
    assert Locate(s.maze, loc) == Some(loc);
    var g := Put(s.maze, loc, s.chars.path);
    var pushed := Expand(Checked, g, loc, s.chars.wall).pushed;
    var n := After(Mark(Checked, s));
    assert n == Pop(s).(maze := g, stack := Pop(s).stack + pushed);
    assert Carried(s, n);
    ExpandChecked(g, loc, s.chars.wall);
    forall d: Dir ensures Covered(n, Neighbour(loc, d)) {
      InRangeShape(s.maze, n.maze, Neighbour(loc, d));
    }
    ClosedCarries(s, n);
    assert n.stack[..|Pop(s).stack|] == Pop(s).stack;
    assert forall k :: |Pop(s).stack| <= k < |n.stack| ==> n.stack[k] in pushed;
    StartCarries(s, n);
  }

  /** One corrected iteration that continues keeps the invariant. */
  lemma StepKeepsInv(g0: Grid, s: Solver)
    requires SearchInv(g0, s) && Step(Checked, s).Continue?
    ensures SearchInv(g0, Step(Checked, s).next)
  {
    var n := Step(Checked, s).next;
    assert InRange(s.maze, s.stack[|s.stack| - 1]);
    assert Locate(s.maze, Top(s)) == Some(Top(s));
    StepTrace(Checked, s);
    TraceTrans(g0, s.maze, n.maze, s.chars.path, s.chars.finish);
    if At(s.maze, Top(s)) == s.chars.path {
      SkipKeepsInv(g0, s);
    } else {
      MarkKeepsInv(g0, s);
    }
  }

  /** Once the corrected search has emptied its stack, the marked cells are
      closed under moves to non-wall neighbours, so every cell of a route
      from the start is marked. */
  lemma {:induction false} ExhaustedMarksRoute(g0: Grid, s: Solver, route: seq<Coord>, i: nat)
    requires SearchInv(g0, s) && |s.stack| == 0 && s.chars.path != s.chars.wall
    requires Route(g0, s.chars.wall, route) && route[0] == s.startPos
    requires i < |route|
    ensures InRange(s.maze, route[i]) && At(s.maze, route[i]) == s.chars.path
  {
    InRangeShape(g0, s.maze, route[i]);
    if i > 0 {
      ExhaustedMarksRoute(g0, s, route, i - 1);
      var v, m := route[i - 1], route[i];
      assert Adjacent(v, m);
      assert Covered(s, m);
      assert At(g0, m) != s.chars.wall;
    }
  }

  /** An exhausted corrected search has not passed over any finish cell that
      a route from the start reaches. */
  lemma ExhaustedMissesNoFinish(g0: Grid, s: Solver, route: seq<Coord>)
    requires SearchInv(g0, s) && |s.stack| == 0
    requires s.chars.path != s.chars.wall && s.chars.path != s.chars.finish
    requires Route(g0, s.chars.wall, route) && route[0] == s.startPos
    ensures At(g0, route[|route| - 1]) != s.chars.finish
  {
    ExhaustedMarksRoute(g0, s, route, |route| - 1);
  }

  /** The corrected iteration ends unsolved only on an empty stack. */
  lemma CheckedUnsolvedOnlyWhenEmpty(g0: Grid, s: Solver)
    requires SearchInv(g0, s) && Step(Checked, s).Unsolved?
    ensures |s.stack| == 0
  {
  }

  lemma {:induction false} LoopFindsFinish(g0: Grid, s: Solver, route: seq<Coord>)
    requires SearchInv(g0, s)
    requires s.chars.path != s.chars.wall && s.chars.path != s.chars.finish
    requires Route(g0, s.chars.wall, route) && route[0] == s.startPos
    requires At(g0, route[|route| - 1]) == s.chars.finish
    ensures Loop(Checked, s).solved
    decreases GridOther(s.maze, s.chars.path), |s.stack|
  {
    match Step(Checked, s)
    case Continue(n) =>
      StepKeepsInv(g0, s);
      LoopFindsFinish(g0, n, route);
    case Solved(_) =>
    case Unsolved(_) =>
      CheckedUnsolvedOnlyWhenEmpty(g0, s);
      ExhaustedMissesNoFinish(g0, s, route);
      assert false;
  }

  /** Completeness of the corrected search: on a maze with no cell marked
      yet, a valid start, a path character that is neither the wall nor the
      finish character, and a stack holding only in-range coordinates (a
      fresh solver's is empty), `run` returns True whenever some route of
      non-wall cells leads from the start to a finish cell. */
  lemma CheckedRunFindsReachableFinish(s: Solver, route: seq<Coord>)
    requires StackInRange(s) && !Holds(s.maze, s.chars.path)
    requires s.chars.path != s.chars.wall && s.chars.path != s.chars.finish
    requires Route(s.maze, s.chars.wall, route) && route[0] == s.startPos
    requires At(s.maze, s.startPos) == s.chars.start
    requires At(s.maze, route[|route| - 1]) == s.chars.finish
    ensures Run(Checked, s) == Returned(Some(true), Run(Checked, s).solver)
  {
    assert Locate(s.maze, s.startPos) == Some(s.startPos);
    var entry := s.(stack := s.stack + [s.startPos]);
    assert entry.stack[|entry.stack| - 1] == s.startPos;
    assert StackInRange(entry) by {
      forall k | 0 <= k < |entry.stack|
        ensures InRange(entry.maze, entry.stack[k])
      {
        if k < |s.stack| {
          assert entry.stack[k] == s.stack[k];
        }
      }
    }
    assert Closed(entry);
    LoopFindsFinish(s.maze, entry, route);
  }
}

=== FILE: config.dfy ===
/** The four configurable sentinel characters and their validated setters. */
module Config {

  /** The characters that mark walls, visited cells, the start and the
      finish. Python keeps each as a string; every way of setting one admits
      only one-character strings, so each is a single character here. */
  datatype Sentinels = Sentinels(wall: char, path: char, start: char, finish: char)

  /** The constructor's defaults (main.py:14-17). */
  const Defaults: Sentinels := Sentinels('*', 'o', 'S', 'F')

  datatype Role = Wall | Path | Start | Finish

  function Sentinel(cs: Sentinels, role: Role): char
  {
    match role
    case Wall => cs.wall
    case Path => cs.path
    case Start => cs.start
    case Finish => cs.finish
  }

  function With(cs: Sentinels, role: Role, ch: char): Sentinels
  {
    match role
    case Wall => cs.(wall := ch)
    case Path => cs.(path := ch)
    case Start => cs.(start := ch)
    case Finish => cs.(finish := ch)
  }

  /** The getters `get_*_char`: the sentinel as the string Python holds. */
  function GetChar(cs: Sentinels, role: Role): (r: string)
    ensures |r| == 1
  {
    [Sentinel(cs, role)]
  }

  function GetWallChar(cs: Sentinels): string { GetChar(cs, Wall) }
  function GetPathChar(cs: Sentinels): string { GetChar(cs, Path) }
  function GetStartChar(cs: Sentinels): string { GetChar(cs, Start) }
  function GetFinishChar(cs: Sentinels): string { GetChar(cs, Finish) }

  /** What a setter returns, and the sentinels it leaves behind. */
  datatype Update = Update(accepted: bool, chars: Sentinels)

  /** The setters `set_*_char`: a candidate is accepted exactly when it is
      one character long; then the getter for that role reads it back, and
      in every case the other three sentinels keep their values. A rejected
      candidate changes nothing. */
  function SetChar(cs: Sentinels, role: Role, candidate: string): (u: Update)
    ensures u.accepted <==> |candidate| == 1
    ensures u.accepted ==> GetChar(u.chars, role) == candidate
    ensures forall other :: other != role ==> Sentinel(u.chars, other) == Sentinel(cs, other)
    ensures !u.accepted ==> u.chars == cs
  {
    if |candidate| == 1 then Update(true, With(cs, role, candidate[0])) else Update(false, cs)
  }

  function SetWallChar(cs: Sentinels, candidate: string): Update { SetChar(cs, Wall, candidate) }
  function SetPathChar(cs: Sentinels, candidate: string): Update { SetChar(cs, Path, candidate) }
  function SetStartChar(cs: Sentinels, candidate: string): Update { SetChar(cs, Start, candidate) }
  function SetFinishChar(cs: Sentinels, candidate: string): Update { SetChar(cs, Finish, candidate) }

  /** No two sentinels share a character. The defaults are distinct; the
      setters above do not keep it so. */
  predicate Distinct(cs: Sentinels)
  {
    && cs.wall != cs.path && cs.wall != cs.start && cs.wall != cs.finish
    && cs.path != cs.start && cs.path != cs.finish && cs.start != cs.finish
  }

  /** `ch` is the sentinel of some role other than `role`. */
  predicate TakenByOther(cs: Sentinels, role: Role, ch: char)
  {
    || (role != Wall && cs.wall == ch) || (role != Path && cs.path == ch)
    || (role != Start && cs.start == ch) || (role != Finish && cs.finish == ch)
  }

  lemma TakenByOtherWitness(cs: Sentinels, role: Role, ch: char)
    requires TakenByOther(cs, role, ch)
    ensures exists other :: other != role && Sentinel(cs, other) == ch
  {
    if role != Wall && cs.wall == ch {
      assert Sentinel(cs, Wall) == ch;
    } else if role != Path && cs.path == ch {
      assert Sentinel(cs, Path) == ch;
    } else if role != Start && cs.start == ch {
      assert Sentinel(cs, Start) == ch;
    } else {
      assert Sentinel(cs, Finish) == ch;
    }
  }

  /** A setter that also refuses a character another sentinel already
      holds: it accepts exactly the one-character candidates no other role
      uses, reads them back, changes nothing else, and keeps the sentinels
      distinct. */
  function SetCharDistinct(cs: Sentinels, role: Role, candidate: string): (u: Update)
    ensures u.accepted <==> |candidate| == 1 && forall other :: other != role ==> Sentinel(cs, other) != candidate[0]
    ensures u.accepted ==> GetChar(u.chars, role) == candidate
    ensures forall other :: other != role ==> Sentinel(u.chars, other) == Sentinel(cs, other)
    ensures !u.accepted ==> u.chars == cs
    ensures Distinct(cs) ==> Distinct(u.chars)
  {
    if |candidate| == 1 && !TakenByOther(cs, role, candidate[0]) then SetChar(cs, role, candidate)
    else
      if |candidate| == 1 then TakenByOtherWitness(cs, role, candidate[0]); Update(false, cs)
      else Update(false, cs)
  }
}

=== FILE: findings.dfy ===
/** Two defects of the neighbour tests of main.py:142-149, each shown on a
    concrete maze where the code as written returns False and the corrected
    test returns True; and a maze where a finish character shared with the
    path character makes `run` return True with no finish cell at all. */
module MazeFindings {
  import opened Grids
  import opened Config
  import opened Maze
  import opened MazeProperties
  import opened SearchSoundness

  // One iteration, loop step and run entry, unfolded once each.

  lemma StepMarks(b: Bounds, s: Solver, e: Expansion)
    requires |s.stack| > 0 && Cell(s.maze, Top(s)).Some?
    requires Cell(s.maze, Top(s)).value != s.chars.finish && Cell(s.maze, Top(s)).value != s.chars.path
    requires Expand(b, Put(s.maze, Top(s), s.chars.path), Top(s), s.chars.wall) == e
    ensures var n := Pop(s).(maze := Put(s.maze, Top(s), s.chars.path), stack := Pop(s).stack + e.pushed);
      Step(b, s) == if e.faulted then Unsolved(n) else Continue(n)
  {
  }

  lemma LoopContinues(b: Bounds, s: Solver, n: Solver)
    requires Step(b, s) == Continue(n)
    ensures Loop(b, s) == Loop(b, n)
  {
  }

  lemma LoopStops(b: Bounds, s: Solver)
    requires !Step(b, s).Continue?
    ensures Loop(b, s) == Halt(Step(b, s).Solved?, After(Step(b, s)))
  {
  }

  lemma RunEnters(b: Bounds, s: Solver)
    requires Cell(s.maze, s.startPos) == Some(s.chars.start)
    ensures Run(b, s).Returned?
    ensures Run(b, s).result == Some(Loop(b, s.(stack := s.stack + [s.startPos])).solved)
  {
  }

  /** A start directly left of the finish, in a maze of one row. */
  const OneRow: Grid := ["SF"]
  const OneRowMarked: Grid := ["oF"]
  const OneRowEntry: Solver := Solver(Coord(0, 0), [Coord(0, 0)], OneRow, Defaults)
  const OneRowNext: Solver := Solver(Coord(0, 0), [Coord(0, 1)], OneRowMarked, Defaults)

  lemma OneRowCells()
    ensures Cell(OneRow, Coord(0, 0)) == Some('S')
    ensures Put(OneRow, Coord(0, 0), 'o') == OneRowMarked
    ensures Cell(OneRowMarked, Coord(1, 0)).None?
    ensures Cell(OneRowMarked, Coord(0, 1)) == Some('F')
  {
    assert InRange(OneRow, Coord(0, 0)) && InRange(OneRowMarked, Coord(0, 1));
    assert OneRow[0][0 := 'o'] == "oF";
  }

  lemma OneRowEntered()
    ensures New(Coord(0, 0), OneRow).(stack := [] + [Coord(0, 0)]) == OneRowEntry
    ensures Cell(New(Coord(0, 0), OneRow).maze, Coord(0, 0)) == Some(Defaults.start)
  {
    OneRowCells();
  }

  /** As written, the read below the start raises. */
  lemma OneRowAsWrittenExpand()
    ensures Expand(AsWritten, OneRowMarked, Coord(0, 0), '*').faulted
  {
    OneRowCells();
    assert Cell(OneRowMarked, Neighbour(Coord(0, 0), Down)).None?;
    ExpandFaults(OneRowMarked, Coord(0, 0), '*');
  }

  /** Corrected, only the finish to the right is pushed. */
  lemma OneRowCheckedExpand()
    ensures Expand(Checked, OneRowMarked, Coord(0, 0), '*') == Expansion([Coord(0, 1)], false)
  {
    var g, loc := OneRowMarked, Coord(0, 0);
    OneRowCells();
    ExpandOrder(Checked, g, loc, '*');
    assert Take(Checked, g, loc, '*', Down) == [];
    assert Take(Checked, g, loc, '*', Up) == [];
    assert InRange(g, Coord(0, 1));
    assert Take(Checked, g, loc, '*', Right) == [Coord(0, 1)];
    assert Take(Checked, g, loc, '*', Left) == [];
  }

  lemma OneRowAsWrittenLoop()
    ensures !Loop(AsWritten, OneRowEntry).solved
  {
    OneRowCells();
    OneRowAsWrittenExpand();
    var e := Expand(AsWritten, OneRowMarked, Coord(0, 0), '*');
    StepMarks(AsWritten, OneRowEntry, e);
    LoopStops(AsWritten, OneRowEntry);
  }

  lemma OneRowCheckedLoop()
    ensures Loop(Checked, OneRowEntry).solved
  {
    OneRowCells();
    OneRowCheckedExpand();
    StepMarks(Checked, OneRowEntry, Expansion([Coord(0, 1)], false));
    assert Pop(OneRowEntry).(maze := OneRowMarked, stack := [] + [Coord(0, 1)]) == OneRowNext;
    LoopContinues(Checked, OneRowEntry, OneRowNext);
    assert Step(Checked, OneRowNext).Solved?;
    LoopStops(Checked, OneRowNext);
  }

  /** As written, a cell in the last row raises IndexError when its lower
      neighbour is read, before any bounds test: the run returns False
      although the finish is next to the start. The corrected test finds it. */
  lemma LastRowReadFails()
    ensures Run(AsWritten, New(Coord(0, 0), OneRow)).result == Some(false)
    ensures Run(Checked, New(Coord(0, 0), OneRow)).result == Some(true)
  {
    OneRowEntered();
    RunEnters(AsWritten, New(Coord(0, 0), OneRow));
    RunEnters(Checked, New(Coord(0, 0), OneRow));
    OneRowAsWrittenLoop();
    OneRowCheckedLoop();
  }

  /** A finish in row 0, reachable only by moving up from the start. */
  const TopRow: Grid := ["*F*", "*S*", "***"]
  const TopRowMarked: Grid := ["*F*", "*o*", "***"]
  const TopRowEntry: Solver := Solver(Coord(1, 1), [Coord(1, 1)], TopRow, Defaults)
  const TopRowStuck: Solver := Solver(Coord(1, 1), [], TopRowMarked, Defaults)
  const TopRowNext: Solver := Solver(Coord(1, 1), [Coord(0, 1)], TopRowMarked, Defaults)

  lemma TopRowCells()
    ensures Cell(TopRow, Coord(1, 1)) == Some('S')
    ensures Put(TopRow, Coord(1, 1), 'o') == TopRowMarked
    ensures Cell(TopRowMarked, Coord(0, 1)) == Some('F')
  {
    assert InRange(TopRow, Coord(1, 1)) && InRange(TopRowMarked, Coord(0, 1));
    assert TopRow[1][1 := 'o'] == "*o*";
  }

  lemma TopRowEntered()
    ensures New(Coord(1, 1), TopRow).(stack := [] + [Coord(1, 1)]) == TopRowEntry
    ensures Cell(New(Coord(1, 1), TopRow).maze, Coord(1, 1)) == Some(Defaults.start)
  {
    TopRowCells();
  }

  /** As written, every neighbour test fails: three walls, and the finish
      above fails `i - 1 > 0`. */
  lemma TopRowAsWrittenExpand()
    ensures Expand(AsWritten, TopRowMarked, Coord(1, 1), '*') == Expansion([], false)
  {
    var g, loc := TopRowMarked, Coord(1, 1);
    assert InRange(g, Coord(2, 1)) && InRange(g, Coord(0, 1)) && InRange(g, Coord(1, 2)) && InRange(g, Coord(1, 0));
    forall d: Dir ensures Cell(g, Neighbour(loc, d)).Some? {
      assert InRange(g, Neighbour(loc, d));
    }
    ExpandFaults(g, loc, '*');
    ExpandOrder(AsWritten, g, loc, '*');
    assert Take(AsWritten, g, loc, '*', Down) == [];
    assert Take(AsWritten, g, loc, '*', Up) == [];
    assert Take(AsWritten, g, loc, '*', Right) == [];
    assert Take(AsWritten, g, loc, '*', Left) == [];
  }

  /** Corrected, the finish above is pushed. */
  lemma TopRowCheckedExpand()
    ensures Expand(Checked, TopRowMarked, Coord(1, 1), '*') == Expansion([Coord(0, 1)], false)
  {
    var g, loc := TopRowMarked, Coord(1, 1);
    assert InRange(g, Coord(2, 1)) && InRange(g, Coord(0, 1)) && InRange(g, Coord(1, 2)) && InRange(g, Coord(1, 0));
    ExpandOrder(Checked, g, loc, '*');
    assert Take(Checked, g, loc, '*', Down) == [];
    assert Take(Checked, g, loc, '*', Up) == [Coord(0, 1)];
    assert Take(Checked, g, loc, '*', Right) == [];
    assert Take(Checked, g, loc, '*', Left) == [];
  }

  lemma TopRowAsWrittenLoop()
    ensures !Loop(AsWritten, TopRowEntry).solved
  {
    TopRowCells();
    TopRowAsWrittenExpand();
    StepMarks(AsWritten, TopRowEntry, Expansion([], false));
    assert Pop(TopRowEntry).(maze := TopRowMarked, stack := [] + []) == TopRowStuck;
    LoopContinues(AsWritten, TopRowEntry, TopRowStuck);
    LoopStops(AsWritten, TopRowStuck);
  }

  lemma TopRowCheckedLoop()
    ensures Loop(Checked, TopRowEntry).solved
  {
    TopRowCells();
    TopRowCheckedExpand();
    StepMarks(Checked, TopRowEntry, Expansion([Coord(0, 1)], false));
    assert Pop(TopRowEntry).(maze := TopRowMarked, stack := [] + [Coord(0, 1)]) == TopRowNext;
    LoopContinues(Checked, TopRowEntry, TopRowNext);
    assert Step(Checked, TopRowNext).Solved?;
    LoopStops(Checked, TopRowNext);
  }

  /** As written, the test `i - 1 > 0` never lets the search move up into
      row 0 (nor, with `j - 1 > 0`, left into column 0): the run returns
      False although the finish is directly above the start. The corrected
      test finds it. */
  lemma TopRowUnreachable()
    ensures Run(AsWritten, New(Coord(1, 1), TopRow)).result == Some(false)
    ensures Run(Checked, New(Coord(1, 1), TopRow)).result == Some(true)
  {
    TopRowEntered();
    RunEnters(AsWritten, New(Coord(1, 1), TopRow));
    RunEnters(Checked, New(Coord(1, 1), TopRow));
    TopRowAsWrittenLoop();
    TopRowCheckedLoop();
  }

  /** The defaults with `set_finish_char("o")`: the finish character is the
      path character. */
  const SharedMark: Sentinels := Sentinels('*', 'o', 'S', 'o')
  /** A corridor of two cells and no finish cell. */
  const Corridor: Grid := ["****", "*S.*", "****"]
  const CorridorOne: Grid := ["****", "*o.*", "****"]
  const CorridorTwo: Grid := ["****", "*oo*", "****"]
  const CorridorStart: Solver := Solver(Coord(1, 1), [], Corridor, SharedMark)
  const CorridorEntry: Solver := Solver(Coord(1, 1), [Coord(1, 1)], Corridor, SharedMark)
  const CorridorNext: Solver := Solver(Coord(1, 1), [Coord(1, 2)], CorridorOne, SharedMark)
  const CorridorBack: Solver := Solver(Coord(1, 1), [Coord(1, 1)], CorridorTwo, SharedMark)

  lemma CorridorCells()
    ensures Cell(Corridor, Coord(1, 1)) == Some('S')
    ensures Put(Corridor, Coord(1, 1), 'o') == CorridorOne
    ensures Cell(CorridorOne, Coord(1, 2)) == Some('.')
    ensures Put(CorridorOne, Coord(1, 2), 'o') == CorridorTwo
    ensures Cell(CorridorTwo, Coord(1, 1)) == Some('o')
  {
    assert InRange(Corridor, Coord(1, 1)) && InRange(CorridorOne, Coord(1, 2)) && InRange(CorridorTwo, Coord(1, 1));
    assert Corridor[1][1 := 'o'] == "*o.*";
    assert CorridorOne[1][2 := 'o'] == "*oo*";
  }

  /** Under either test, marking the start pushes only the cell to its right. */
  lemma CorridorExpandStart(b: Bounds)
    ensures Expand(b, CorridorOne, Coord(1, 1), '*') == Expansion([Coord(1, 2)], false)
  {
    var g, loc := CorridorOne, Coord(1, 1);
    assert InRange(g, Coord(2, 1)) && InRange(g, Coord(0, 1)) && InRange(g, Coord(1, 2)) && InRange(g, Coord(1, 0));
    forall d: Dir ensures Cell(g, Neighbour(loc, d)).Some? {
      assert InRange(g, Neighbour(loc, d));
    }
    match b
    case AsWritten =>
      ExpandFaults(g, loc, '*');
      ExpandOrder(AsWritten, g, loc, '*');
      assert Take(AsWritten, g, loc, '*', Down) == [];
      assert Take(AsWritten, g, loc, '*', Up) == [];
      assert Take(AsWritten, g, loc, '*', Right) == [Coord(1, 2)];
      assert Take(AsWritten, g, loc, '*', Left) == [];
    case Checked =>
      ExpandOrder(Checked, g, loc, '*');
      assert Take(Checked, g, loc, '*', Down) == [];
      assert Take(Checked, g, loc, '*', Up) == [];
      assert Take(Checked, g, loc, '*', Right) == [Coord(1, 2)];
      assert Take(Checked, g, loc, '*', Left) == [];
  }

  /** Under either test, marking the second cell pushes the start back: it
      holds the path character, which is no wall. */
  lemma CorridorExpandBack(b: Bounds)
    ensures Expand(b, CorridorTwo, Coord(1, 2), '*') == Expansion([Coord(1, 1)], false)
  {
    var g, loc := CorridorTwo, Coord(1, 2);
    assert InRange(g, Coord(2, 2)) && InRange(g, Coord(0, 2)) && InRange(g, Coord(1, 3)) && InRange(g, Coord(1, 1));
    forall d: Dir ensures Cell(g, Neighbour(loc, d)).Some? {
      assert InRange(g, Neighbour(loc, d));
    }
    match b
    case AsWritten =>
      ExpandFaults(g, loc, '*');
      ExpandOrder(AsWritten, g, loc, '*');
      assert Take(AsWritten, g, loc, '*', Down) == [];
      assert Take(AsWritten, g, loc, '*', Up) == [];
      assert Take(AsWritten, g, loc, '*', Right) == [];
      assert Take(AsWritten, g, loc, '*', Left) == [Coord(1, 1)];
    case Checked =>
      ExpandOrder(Checked, g, loc, '*');
      assert Take(Checked, g, loc, '*', Down) == [];
      assert Take(Checked, g, loc, '*', Up) == [];
      assert Take(Checked, g, loc, '*', Right) == [];
      assert Take(Checked, g, loc, '*', Left) == [Coord(1, 1)];
  }

  lemma CorridorFirstStep(b: Bounds)
    ensures Step(b, CorridorEntry) == Continue(CorridorNext)
  {
    CorridorCells();
    CorridorExpandStart(b);
    StepMarks(b, CorridorEntry, Expansion([Coord(1, 2)], false));
    assert Pop(CorridorEntry).(maze := CorridorOne, stack := [] + [Coord(1, 2)]) == CorridorNext;
  }

  lemma CorridorSecondStep(b: Bounds)
    ensures Step(b, CorridorNext) == Continue(CorridorBack)
  {
    CorridorCells();
    CorridorExpandBack(b);
    StepMarks(b, CorridorNext, Expansion([Coord(1, 1)], false));
    assert Pop(CorridorNext).(maze := CorridorTwo, stack := [] + [Coord(1, 1)]) == CorridorBack;
  }

  lemma CorridorLoop(b: Bounds)
    ensures Loop(b, CorridorEntry).solved
  {
    CorridorFirstStep(b);
    LoopContinues(b, CorridorEntry, CorridorNext);
    CorridorSecondStep(b);
    LoopContinues(b, CorridorNext, CorridorBack);
    CorridorCells();
    assert Step(b, CorridorBack).Solved?;
    LoopStops(b, CorridorBack);
  }

  /** No cell of the corridor holds the character `o`, so no route ends on
      a finish cell once `o` is the finish character. */
  lemma CorridorHasNoFinish()
    ensures !Holds(Corridor, 'o')
    ensures !FinishReachable(Corridor, SharedMark, Coord(1, 1))
  {
    ReachableFinishHolds(Corridor, SharedMark, Coord(1, 1));
    forall i, j | 0 <= i < |Corridor| && 0 <= j < |Corridor[i]|
      ensures Corridor[i][j] != 'o'
    {
    }
  }

  lemma CorridorRun(b: Bounds)
    ensures Run(b, CorridorStart).result == Some(true)
  {
    var s := CorridorStart;
    CorridorCells();
    assert s.(stack := [] + [Coord(1, 1)]) == CorridorEntry;
    RunEnters(b, s);
    CorridorLoop(b);
  }

  /** The setters accept a finish character equal to the path character.
      Then `run` as written returns True on a maze that holds no
      finish cell: the start is marked, its neighbour is marked and pushes
      the start back, and the start now reads as the finish character. */
  lemma SharedMarkSolvesNothing(s: Solver)
    requires s == New(Coord(1, 1), Corridor).(chars := SetFinishChar(Defaults, "o").chars)
    ensures SetFinishChar(Defaults, "o").accepted && s.chars.finish == s.chars.path
    ensures !Holds(s.maze, s.chars.finish) && !FinishReachable(s.maze, s.chars, s.startPos)
    ensures Run(AsWritten, s).result == Some(true)
  {
    assert s == CorridorStart;
    CorridorHasNoFinish();
    CorridorRun(AsWritten);
  }

  /** The corrected neighbour test does not help: it too returns True on
      that maze. */
  lemma SharedMarkCheckedToo(s: Solver)
    requires s == New(Coord(1, 1), Corridor).(chars := SetFinishChar(Defaults, "o").chars)
    ensures Run(Checked, s).result == Some(true)
  {
    assert s == CorridorStart;
    CorridorRun(Checked);
  }
}

=== FILE: grid.dfy ===
/** The maze grid: Python-style cell access, in-place marking, and the count
    of unmarked cells that bounds the search. */
module Grids {

  datatype Option<+T> = None | Some(value: T)

  /** Rows of single characters. Rows need not have equal length: the source
      never checks that they do. */
  type Grid = seq<seq<char>>

  /** A (row, column) pair as the source stores it; either part may be
      negative, which Python reads as counting from the end. */
  datatype Coord = Coord(row: int, col: int)

  /** `p` addresses a cell directly, without wrap-around. */
  predicate InRange(g: Grid, p: Coord)
  {
    0 <= p.row < |g| && 0 <= p.col < |g[p.row]|
  }

  function At(g: Grid, p: Coord): char
    requires InRange(g, p)
  {
    g[p.row][p.col]
  }

  predicate SameShape(g: Grid, h: Grid)
  {
    |g| == |h| && forall i :: 0 <= i < |g| ==> |g[i]| == |h[i]|
  }

  /** Python list indexing on a list of length `n`: an index in [-n, n)
      selects an element, a negative one counting from the end; any other
      index raises IndexError, modelled as None. */
  function PyIndex(n: nat, k: int): (r: Option<nat>)
    ensures r.Some? <==> -(n as int) <= k < n
    ensures r.Some? ==> r.value < n
    ensures 0 <= k < n ==> r == Some(k)
    // a negative index counts from the end: -1 is the last element
    ensures r.Some? ==> r.value as int == k % n
  {
    if 0 <= k < n then Some(k)
    else if -(n as int) <= k < 0 then Some(n + k)
    else None
  }

  /** The cell that `maze[loc.row][loc.col]` reaches in Python, or None when
      either subscript raises IndexError. */
  function Locate(g: Grid, loc: Coord): (p: Option<Coord>)
    ensures p.Some? ==> InRange(g, p.value)
    ensures InRange(g, loc) ==> p == Some(loc)
    // each subscript wraps around as Python's does
    ensures p.Some? ==> p.value.row == loc.row % |g| && p.value.col == loc.col % |g[p.value.row]|
  {
    match PyIndex(|g|, loc.row)
    case None => None
    case Some(r) =>
      match PyIndex(|g[r]|, loc.col)
      case None => None
      case Some(c) => Some(Coord(r, c))
  }

  /** Reading `maze[loc.row][loc.col]`: None stands for IndexError. */
  function Cell(g: Grid, loc: Coord): Option<char>
  {
    match Locate(g, loc)
    case None => None
    case Some(p) => Some(At(g, p))
  }

  /** The assignment `maze[loc.row][loc.col] = ch`, for a cell the read
      before it reached. */
  function Put(g: Grid, loc: Coord, ch: char): (h: Grid)
    requires Locate(g, loc).Some?
    ensures SameShape(g, h)
    ensures forall i, j :: 0 <= i < |g| && 0 <= j < |g[i]| ==>
      h[i][j] == if Coord(i, j) == Locate(g, loc).value then ch else g[i][j]
  {
    var p := Locate(g, loc).value;
    g[p.row := g[p.row][p.col := ch]]
  }

  /** Python indexing depends on the lengths only. */
  lemma LocateShape(g: Grid, h: Grid, loc: Coord)
    requires SameShape(g, h)
    ensures Locate(g, loc) == Locate(h, loc)
  {
  }

  /** After a write, a read sees the written character exactly when it
      reaches the written cell. */
  lemma CellPut(g: Grid, loc: Coord, ch: char, e: Coord)
    requires Locate(g, loc).Some?
    ensures Cell(Put(g, loc, ch), e) ==
      if Locate(g, e).Some? && Locate(g, e) == Locate(g, loc) then Some(ch) else Cell(g, e)
  {
    LocateShape(g, Put(g, loc, ch), e);
  }

  /** Number of entries of `row` other than `x`. */
  function RowOther(row: seq<char>, x: char): nat
  {
    if |row| == 0 then 0 else (if row[0] != x then 1 else 0) + RowOther(row[1..], x)
  }

  /** Number of cells other than `x`: with `x` the path character, the
      cells the search may still mark. */
  function GridOther(g: Grid, x: char): nat
  {
    if |g| == 0 then 0 else RowOther(g[0], x) + GridOther(g[1..], x)
  }

  lemma {:induction false} RowOtherWrite(row: seq<char>, c: nat, x: char)
    requires c < |row| && row[c] != x
    ensures RowOther(row[c := x], x) + 1 == RowOther(row, x)
  {
    if c > 0 {
      assert row[c := x][1..] == row[1..][c - 1 := x];
      RowOtherWrite(row[1..], c - 1, x);
    } else {
      assert row[c := x][1..] == row[1..];
    }
  }

  lemma {:induction false} GridOtherWrite(g: Grid, p: Coord, x: char)
    requires InRange(g, p) && At(g, p) != x
    ensures GridOther(g[p.row := g[p.row][p.col := x]], x) + 1 == GridOther(g, x)
  {
    var h := g[p.row := g[p.row][p.col := x]];
    if p.row > 0 {
      assert h[1..] == g[1..][p.row - 1 := g[p.row][p.col := x]];
      GridOtherWrite(g[1..], Coord(p.row - 1, p.col), x);
    } else {
      assert h[1..] == g[1..];
      RowOtherWrite(g[0], p.col, x);
    }
  }

  /** Marking a cell that was not yet `x` leaves exactly one fewer cell
      that is not `x`: the measure that makes the search terminate. */
  lemma PutMarks(g: Grid, loc: Coord, x: char)
    requires Cell(g, loc).Some? && Cell(g, loc).value != x
    ensures GridOther(Put(g, loc, x), x) + 1 == GridOther(g, x)
  {
    GridOtherWrite(g, Locate(g, loc).value, x);
  }
}

=== FILE: properties.dfy ===
/** What a run does to the maze: it only writes the path character, never
    over a finish cell, never over a wall, and it reports success only at a
    finish cell. */
module MazeProperties {
  import opened Grids
  import opened Text
  import opened Config
  import opened Maze

  /** `g` is `g0` with some cells overwritten by `path`; no finish cell is
      among them, and the shape is the same. */
  predicate Trace(g0: Grid, g: Grid, path: char, finish: char)
  {
    && SameShape(g0, g)
    && forall i, j :: 0 <= i < |g0| && 0 <= j < |g0[i]| ==>
         g[i][j] == g0[i][j] || (g[i][j] == path && g0[i][j] != finish)
  }

  /** Some cell of `g` holds `ch`. */
  predicate Holds(g: Grid, ch: char)
  {
    exists i, j :: 0 <= i < |g| && 0 <= j < |g[i]| && g[i][j] == ch
  }

  /** Every wall of `g0` is still a wall in `g`. */
  predicate WallsKept(g0: Grid, g: Grid, wall: char)
  {
    && SameShape(g0, g)
    && forall i, j :: 0 <= i < |g0| && 0 <= j < |g0[i]| && g0[i][j] == wall ==> g[i][j] == wall
  }

  /** No stacked coordinate reads as a wall. */
  predicate StackClear(s: Solver)
  {
    forall k :: 0 <= k < |s.stack| ==> Cell(s.maze, s.stack[k]) != Some(s.chars.wall)
  }

  lemma TraceTrans(g0: Grid, g1: Grid, g2: Grid, path: char, finish: char)
    requires Trace(g0, g1, path, finish) && Trace(g1, g2, path, finish)
    ensures Trace(g0, g2, path, finish)
  {
  }

  lemma WallsKeptTrans(g0: Grid, g1: Grid, g2: Grid, wall: char)
    requires WallsKept(g0, g1, wall) && WallsKept(g1, g2, wall)
    ensures WallsKept(g0, g2, wall)
  {
  }

  lemma StepTrace(b: Bounds, s: Solver)
    ensures Trace(s.maze, After(Step(b, s)).maze, s.chars.path, s.chars.finish)
    ensures After(Step(b, s)).chars == s.chars
  {
  }

  /** However the loop ends, it has only written the path character, and
      never over a finish cell. */
  lemma {:induction false} LoopTrace(b: Bounds, s: Solver)
    ensures Trace(s.maze, Loop(b, s).solver.maze, s.chars.path, s.chars.finish)
    decreases GridOther(s.maze, s.chars.path), |s.stack|
  {
    StepTrace(b, s);
    match Step(b, s)
    case Continue(n) =>
      LoopTrace(b, n);
      TraceTrans(s.maze, n.maze, Loop(b, n).solver.maze, s.chars.path, s.chars.finish);
    case Solved(_) =>
    case Unsolved(_) =>
  }

  /** `run` leaves the maze's shape alone and changes cells only to the path
      character; a finish cell keeps the finish character. */
  lemma RunMarksOnlyPath(b: Bounds, s: Solver)
    ensures Trace(s.maze, Run(b, s).solver.maze, s.chars.path, s.chars.finish)
    ensures forall i, j :: 0 <= i < |s.maze| && 0 <= j < |s.maze[i]| && s.maze[i][j] == s.chars.finish ==>
      Run(b, s).solver.maze[i][j] == s.chars.finish
  {
    if CheckInput(s) == Some(true) {
      LoopTrace(b, s.(stack := s.stack + [s.startPos]));
    }
  }

  /** The loop succeeds only on popping a cell that holds the finish
      character, and that cell still holds it afterwards. */
  lemma {:induction false} LoopSolvedAtFinish(b: Bounds, s: Solver)
    ensures Loop(b, s).solved ==> Holds(Loop(b, s).solver.maze, s.chars.finish)
    decreases GridOther(s.maze, s.chars.path), |s.stack|
  {
    match Step(b, s)
    case Continue(n) =>
      LoopSolvedAtFinish(b, n);
    case Solved(f) =>
      var p := Locate(s.maze, Top(s)).value;
      assert f.maze[p.row][p.col] == s.chars.finish;
    case Unsolved(_) =>
  }

  /** `run` returns True only when the maze holds the finish character; with
      a path character different from it, the finish cell was already in the
      maze before the run. */
  lemma RunSolvedNeedsFinish(b: Bounds, s: Solver)
    requires Run(b, s) == Returned(Some(true), Run(b, s).solver)
    ensures Holds(Run(b, s).solver.maze, s.chars.finish)
    ensures s.chars.path != s.chars.finish ==> Holds(s.maze, s.chars.finish)
  {
    var entry := s.(stack := s.stack + [s.startPos]);
    LoopSolvedAtFinish(b, entry);
    RunMarksOnlyPath(b, s);
    var g := Run(b, s).solver.maze;
    var i, j :| 0 <= i < |g| && 0 <= j < |g[i]| && g[i][j] == s.chars.finish;
    if s.chars.path != s.chars.finish {
      assert s.maze[i][j] == s.chars.finish;
    }
  }

  lemma StepKeepsWalls(b: Bounds, s: Solver)
    requires s.chars.wall != s.chars.path && StackClear(s)
    ensures StackClear(After(Step(b, s)))
    ensures WallsKept(s.maze, After(Step(b, s)).maze, s.chars.wall)
  {
    var n := After(Step(b, s));
    if MarksTop(s, n) {
      var loc := Top(s);
      assert Cell(s.maze, loc) != Some(s.chars.wall);
      forall k | 0 <= k < |n.stack|
        ensures Cell(n.maze, n.stack[k]) != Some(s.chars.wall)
      {
        if k < |s.stack| - 1 {
          assert n.stack[k] == s.stack[k];
          CellPut(s.maze, loc, s.chars.path, n.stack[k]);
        }
      }
    }
  }

  lemma {:induction false} LoopKeepsWalls(b: Bounds, s: Solver)
    requires s.chars.wall != s.chars.path && StackClear(s)
    ensures WallsKept(s.maze, Loop(b, s).solver.maze, s.chars.wall)
    decreases GridOther(s.maze, s.chars.path), |s.stack|
  {
    StepKeepsWalls(b, s);
    StepTrace(b, s);
    match Step(b, s)
    case Continue(n) =>
      LoopKeepsWalls(b, n);
      WallsKeptTrans(s.maze, n.maze, Loop(b, n).solver.maze, s.chars.wall);
    case Solved(_) =>
    case Unsolved(_) =>
  }

  /** Walls stay walls: trivially when the path mark is itself the wall
      character, and otherwise when the start character is not the wall
      character and nothing left on the stack reads as a wall. */
  lemma RunKeepsWalls(b: Bounds, s: Solver)
    requires s.chars.wall == s.chars.path || (s.chars.wall != s.chars.start && StackClear(s))
    ensures WallsKept(s.maze, Run(b, s).solver.maze, s.chars.wall)
  {
    if s.chars.wall == s.chars.path {
      RunMarksOnlyPath(b, s);
    } else if CheckInput(s) == Some(true) {
      var entry := s.(stack := s.stack + [s.startPos]);
      assert StackClear(entry) by {
        forall k | 0 <= k < |entry.stack|
          ensures Cell(entry.maze, entry.stack[k]) != Some(entry.chars.wall)
        {
          if k < |s.stack| {
            assert entry.stack[k] == s.stack[k];
          }
        }
      }
      LoopKeepsWalls(b, entry);
    }
  }

  /** The first run of a freshly constructed solver keeps every wall. */
  lemma FreshRunKeepsWalls(b: Bounds, startPos: Coord, maze: Grid)
    ensures WallsKept(maze, Run(b, New(startPos, maze)).solver.maze, Defaults.wall)
  {
    RunKeepsWalls(b, New(startPos, maze));
  }

  /** Rendering right after construction from a file reproduces the file's
      text, as text mode delivers it (newlines already translated), with a
      newline added when the last line lacks one. */
  lemma RenderAfterLoad(startPos: Coord, text: string)
    ensures Render(NewFromText(startPos, text).maze) == Terminated(text)
    ensures |text| == 0 || text[|text| - 1] == '\n' ==> Render(NewFromText(startPos, text).maze) == text
  {
    RenderLoadAll(text);
  }
}

=== FILE: solver.dfy ===
/** `MazeSolver`: the stack-based depth-first search of main.py, one loop
    iteration at a time. */
module Maze {
  import opened Grids
  import opened Text
  import opened Config

  /** A solver instance: the start coordinate, the stack (an attribute of the
      instance, created empty by the constructor and never reset, so it
      survives from one run to the next), the maze and the sentinels. */
  datatype Solver = Solver(startPos: Coord, stack: seq<Coord>, maze: Grid, chars: Sentinels)

  /** The constructor given an array (main.py:5-17, 23): an empty stack,
      the maze as given, and the default sentinels, which are distinct. */
  function New(startPos: Coord, maze: Grid): (r: Solver)
    ensures r.startPos == startPos && r.stack == [] && r.maze == maze
    ensures r.chars == Defaults && Distinct(r.chars)
  {
    Solver(startPos, [], maze, Defaults)
  }

  /** The constructor given a file (main.py:18-21), the file's text standing
      in for the file: decoded, with newlines translated to `\n` as text
      mode does. */
  function NewFromText(startPos: Coord, text: string): (r: Solver)
    ensures r.startPos == startPos && r.stack == [] && Distinct(r.chars)
    // one row per line of the file, each with its newlines removed
    ensures |r.maze| == |ReadLines(text)|
    ensures forall i :: 0 <= i < |r.maze| ==> r.maze[i] == RemoveNewlines(ReadLines(text)[i])
  {
    New(startPos, Load(text))
  }

  /** The four neighbours, in the order main.py:142-149 tests them. */
  datatype Dir = Down | Up | Right | Left

  const Order: seq<Dir> := [Down, Up, Right, Left]

  function Neighbour(loc: Coord, d: Dir): Coord
  {
    match d
    case Down => Coord(loc.row + 1, loc.col)
    case Up => Coord(loc.row - 1, loc.col)
    case Right => Coord(loc.row, loc.col + 1)
    case Left => Coord(loc.row, loc.col - 1)
  }

  predicate Adjacent(a: Coord, b: Coord)
  {
    b == Neighbour(a, Down) || b == Neighbour(a, Up) || b == Neighbour(a, Right) || b == Neighbour(a, Left)
  }

  /** Which neighbour test is in force. `AsWritten` is main.py:142-149: the
      neighbour is read first (an IndexError ends the run), then compared with
      the wall, then given an asymmetric bounds test. `Checked` is the
      corrected test: the neighbour is pushed exactly when it lies inside the
      maze and is not a wall, and nothing out of range is read. */
  datatype Bounds = AsWritten | Checked

  /** The bounds tests of main.py:142-149, `get_width` being the length of
      row 0. */
  predicate BoundsTest(g: Grid, loc: Coord, d: Dir)
    requires |g| > 0
  {
    match d
    case Down => loc.row + 1 <= Height(g)
    case Up => loc.row - 1 > 0
    case Right => loc.col + 1 <= Width(g).value
    case Left => loc.col - 1 > 0
  }

  /** One neighbour test: None when it raises IndexError, otherwise whether
      the neighbour is pushed. */
  function Probe(b: Bounds, g: Grid, loc: Coord, d: Dir, wall: char): Option<bool>
    requires |g| > 0
  {
    var n := Neighbour(loc, d);
    match b
    case AsWritten =>
      (match Cell(g, n)
       case None => None
       case Some(ch) => Some(ch != wall && BoundsTest(g, loc, d)))
    case Checked => Some(InRange(g, n) && At(g, n) != wall)
  }

  /** The neighbours one expansion pushes, and whether a test raised. */
  datatype Expansion = Expansion(pushed: seq<Coord>, faulted: bool)

  /** Runs the tests for `dirs` in order, stopping at the first one that
      raises; the pushes made before it stay on the stack. */
  function ExpandAlong(b: Bounds, g: Grid, loc: Coord, wall: char, dirs: seq<Dir>): (e: Expansion)
    requires |g| > 0
    ensures |e.pushed| <= |dirs|
    ensures forall n <- e.pushed :: exists d <- dirs :: n == Neighbour(loc, d) && Probe(b, g, loc, d, wall) == Some(true)
    ensures e.faulted <==> exists d <- dirs :: Probe(b, g, loc, d, wall).None?
  {
    if |dirs| == 0 then Expansion([], false)
    else
      match Probe(b, g, loc, dirs[0], wall)
      case None => Expansion([], true)
      case Some(push) =>
        var rest := ExpandAlong(b, g, loc, wall, dirs[1..]);
        assert forall d <- dirs[1..] :: d in dirs;
        assert forall d <- dirs :: d == dirs[0] || d in dirs[1..];
        Expansion((if push then [Neighbour(loc, dirs[0])] else []) + rest.pushed, rest.faulted)
  }

  lemma OrderComplete()
    ensures forall d: Dir :: d in Order
  {
    forall d: Dir ensures d in Order {
      match d
      case Down => assert Order[0] == Down;
      case Up => assert Order[1] == Up;
      case Right => assert Order[2] == Right;
      case Left => assert Order[3] == Left;
    }
  }

  /** With no fault, every neighbour whose test passes is pushed. */
  lemma {:induction false} ExpandAlongComplete(b: Bounds, g: Grid, loc: Coord, wall: char, dirs: seq<Dir>, d: Dir)
    requires |g| > 0 && !ExpandAlong(b, g, loc, wall, dirs).faulted
    requires d in dirs && Probe(b, g, loc, d, wall) == Some(true)
    ensures Neighbour(loc, d) in ExpandAlong(b, g, loc, wall, dirs).pushed
  {
    if d != dirs[0] {
      assert d in dirs[1..];
      ExpandAlongComplete(b, g, loc, wall, dirs[1..], d);
    }
  }

  /** The neighbour `d` contributes to the stack when its test passes. */
  function Take(b: Bounds, g: Grid, loc: Coord, wall: char, d: Dir): seq<Coord>
    requires |g| > 0
  {
    if Probe(b, g, loc, d, wall) == Some(true) then [Neighbour(loc, d)] else []
  }

  /** A neighbour that passes its test is adjacent, readable and not a wall;
      as written it also passed the bounds test, corrected it is in range. */
  lemma ProbePasses(b: Bounds, g: Grid, loc: Coord, wall: char)
    requires |g| > 0
    ensures forall d: Dir :: Probe(b, g, loc, d, wall) == Some(true) ==>
      && Adjacent(loc, Neighbour(loc, d))
      && Cell(g, Neighbour(loc, d)).Some? && Cell(g, Neighbour(loc, d)).value != wall
      && (b == AsWritten ==> BoundsTest(g, loc, d))
      && (b == Checked ==> InRange(g, Neighbour(loc, d)))
  {
  }

  /** The expansion of a freshly marked cell (main.py:142-149). */
  function Expand(b: Bounds, g: Grid, loc: Coord, wall: char): (e: Expansion)
    requires |g| > 0
    // at most four pushes, each an adjacent readable cell that is not a wall
    ensures |e.pushed| <= 4
    ensures forall n <- e.pushed :: Adjacent(loc, n) && Cell(g, n).Some? && Cell(g, n).value != wall
    // as written, a move up or left never reaches row 0 or column 0
    ensures b == AsWritten ==> forall n <- e.pushed :: (n.row < loc.row ==> n.row > 0) && (n.col < loc.col ==> n.col > 0)
    // corrected, nothing raises and everything pushed is in range
    ensures b == Checked ==> !e.faulted && forall n <- e.pushed :: InRange(g, n)
  {
    ProbePasses(b, g, loc, wall);
    ExpandAlong(b, g, loc, wall, Order)
  }

  /** From an in-range cell, every push lies in range under either policy: as
      written, a move down or right starts from a non-negative index and the
      read succeeded, and a move up or left passed its `> 0` test. */
  lemma ExpandInRange(b: Bounds, g: Grid, loc: Coord, wall: char)
    requires |g| > 0 && InRange(g, loc)
    ensures forall n <- Expand(b, g, loc, wall).pushed :: InRange(g, n) && At(g, n) != wall
  {
    forall n <- Expand(b, g, loc, wall).pushed
      ensures InRange(g, n) && At(g, n) != wall
    {
      assert 0 <= n.row && 0 <= n.col;
      assert Locate(g, n).Some?;
    }
  }

  /** With no fault, the pushes come in the order down, up, right, left, each
      present exactly when its test passes. */
  lemma ExpandOrder(b: Bounds, g: Grid, loc: Coord, wall: char)
    requires |g| > 0 && !Expand(b, g, loc, wall).faulted
    ensures Expand(b, g, loc, wall).pushed ==
      Take(b, g, loc, wall, Down) + Take(b, g, loc, wall, Up)
      + Take(b, g, loc, wall, Right) + Take(b, g, loc, wall, Left)
  {
    assert Expand(b, g, loc, wall) == ExpandAlong(b, g, loc, wall, Order);
    ExpandAlongOrder(b, g, loc, wall);
  }

  /** The pushes of the tests for `dirs` when none raises. */
  function TakeAll(b: Bounds, g: Grid, loc: Coord, wall: char, dirs: seq<Dir>): seq<Coord>
    requires |g| > 0
  {
    if |dirs| == 0 then [] else Take(b, g, loc, wall, dirs[0]) + TakeAll(b, g, loc, wall, dirs[1..])
  }

  lemma {:induction false} ExpandAlongTakes(b: Bounds, g: Grid, loc: Coord, wall: char, dirs: seq<Dir>)
    requires |g| > 0 && !ExpandAlong(b, g, loc, wall, dirs).faulted
    ensures ExpandAlong(b, g, loc, wall, dirs).pushed == TakeAll(b, g, loc, wall, dirs)
  {
    if |dirs| > 0 {
      ExpandAlongCons(b, g, loc, wall, dirs);
      ExpandAlongTakes(b, g, loc, wall, dirs[1..]);
    }
  }

  lemma TakeAllCons(b: Bounds, g: Grid, loc: Coord, wall: char, d: Dir, rest: seq<Dir>)
    requires |g| > 0
    ensures TakeAll(b, g, loc, wall, [d] + rest) == Take(b, g, loc, wall, d) + TakeAll(b, g, loc, wall, rest)
  {
    assert ([d] + rest)[0] == d && ([d] + rest)[1..] == rest;
  }

  lemma TakeAllOrder(b: Bounds, g: Grid, loc: Coord, wall: char)
    requires |g| > 0
    ensures TakeAll(b, g, loc, wall, Order) ==
      Take(b, g, loc, wall, Down) + Take(b, g, loc, wall, Up)
      + Take(b, g, loc, wall, Right) + Take(b, g, loc, wall, Left)
  {
    assert Order == [Down] + ([Up] + ([Right] + ([Left] + [])));
    TakeAllCons(b, g, loc, wall, Left, []);
    TakeAllCons(b, g, loc, wall, Right, [Left] + []);
    TakeAllCons(b, g, loc, wall, Up, [Right] + ([Left] + []));
    TakeAllCons(b, g, loc, wall, Down, [Up] + ([Right] + ([Left] + [])));
    var down, up := Take(b, g, loc, wall, Down), Take(b, g, loc, wall, Up);
    var right, left := Take(b, g, loc, wall, Right), Take(b, g, loc, wall, Left);
    assert TakeAll(b, g, loc, wall, Order) == down + (up + (right + (left + [])));
    SeqAssoc4(down, up, right, left);
  }

  lemma SeqAssoc4<T>(a: seq<T>, b: seq<T>, c: seq<T>, d: seq<T>)
    ensures a + (b + (c + (d + []))) == a + b + c + d
  {
    assert d + [] == d;
  }

  lemma ExpandAlongOrder(b: Bounds, g: Grid, loc: Coord, wall: char)
    requires |g| > 0 && !ExpandAlong(b, g, loc, wall, Order).faulted
    ensures ExpandAlong(b, g, loc, wall, Order).pushed ==
      Take(b, g, loc, wall, Down) + Take(b, g, loc, wall, Up)
      + Take(b, g, loc, wall, Right) + Take(b, g, loc, wall, Left)
  {
    ExpandAlongTakes(b, g, loc, wall, Order);
    TakeAllOrder(b, g, loc, wall);
  }

  lemma ExpandAlongCons(b: Bounds, g: Grid, loc: Coord, wall: char, dirs: seq<Dir>)
    requires |g| > 0 && |dirs| > 0 && !ExpandAlong(b, g, loc, wall, dirs).faulted
    ensures !ExpandAlong(b, g, loc, wall, dirs[1..]).faulted
    ensures ExpandAlong(b, g, loc, wall, dirs).pushed ==
      Take(b, g, loc, wall, dirs[0]) + ExpandAlong(b, g, loc, wall, dirs[1..]).pushed
  {
  }

  /** As written, the expansion raises exactly when one of the four
      neighbours cannot be read. */
  lemma ExpandFaults(g: Grid, loc: Coord, wall: char)
    requires |g| > 0
    ensures Expand(AsWritten, g, loc, wall).faulted <==> exists d: Dir :: Cell(g, Neighbour(loc, d)).None?
  {
    OrderComplete();
    assert forall d: Dir :: Probe(AsWritten, g, loc, d, wall).None? <==> Cell(g, Neighbour(loc, d)).None?;
    assert Expand(AsWritten, g, loc, wall) == ExpandAlong(AsWritten, g, loc, wall, Order);
  }

  /** Corrected, every in-range neighbour that is not a wall is pushed. */
  lemma ExpandChecked(g: Grid, loc: Coord, wall: char)
    requires |g| > 0
    ensures forall d: Dir :: InRange(g, Neighbour(loc, d)) && At(g, Neighbour(loc, d)) != wall ==>
      Neighbour(loc, d) in Expand(Checked, g, loc, wall).pushed
  {
    OrderComplete();
    forall d: Dir | InRange(g, Neighbour(loc, d)) && At(g, Neighbour(loc, d)) != wall
      ensures Neighbour(loc, d) in Expand(Checked, g, loc, wall).pushed
    {
      ExpandAlongComplete(Checked, g, loc, wall, Order, d);
    }
  }

  function Top(s: Solver): Coord
    requires |s.stack| > 0
  {
    s.stack[|s.stack| - 1]
  }

  /** `self.stack.pop()` on a non-empty stack. */
  function Pop(s: Solver): Solver
    requires |s.stack| > 0
  {
    s.(stack := s.stack[..|s.stack| - 1])
  }

  /** One iteration of the loop of main.py:130-155. */
  datatype StepResult = Continue(next: Solver) | Solved(final: Solver) | Unsolved(final: Solver)

  function After(r: StepResult): Solver
  {
    match r
    case Continue(n) => n
    case Solved(f) => f
    case Unsolved(f) => f
  }

  /** `n` is `s` with nothing but the stack changed: popped once, or left
      alone when it was empty. */
  predicate OnlyPopped(s: Solver, n: Solver)
  {
    if |s.stack| == 0 then n == s else n == Pop(s)
  }

  /** `n` is `s` with the popped cell, which was neither the path nor the
      finish character, overwritten with the path character and at most four
      readable non-wall cells pushed after the remaining stack. */
  predicate MarksTop(s: Solver, n: Solver)
  {
    && |s.stack| > 0
    && Cell(s.maze, Top(s)).Some?
    && Cell(s.maze, Top(s)).value != s.chars.path
    && Cell(s.maze, Top(s)).value != s.chars.finish
    && n.startPos == s.startPos && n.chars == s.chars
    && n.maze == Put(s.maze, Top(s), s.chars.path)
    && |s.stack| - 1 <= |n.stack| <= |s.stack| + 3
    && n.stack[..|s.stack| - 1] == Pop(s).stack
    && forall k :: |s.stack| - 1 <= k < |n.stack| ==>
         Adjacent(Top(s), n.stack[k]) && Cell(n.maze, n.stack[k]).Some? && Cell(n.maze, n.stack[k]).value != s.chars.wall
  }

  /** The termination measure of the loop goes down: one more cell holds the
      path character, or the maze is unchanged and the stack shorter. */
  predicate Progress(s: Solver, n: Solver)
  {
    n.chars == s.chars &&
    (GridOther(n.maze, s.chars.path) < GridOther(s.maze, s.chars.path)
     || (n.maze == s.maze && |n.stack| < |s.stack|))
  }

  /** The branch of main.py:140-149 that marks the popped cell and expands
      it; the stack is already popped in `s`'s successor. */
  function Mark(b: Bounds, s: Solver): (r: StepResult)
    requires |s.stack| > 0 && Cell(s.maze, Top(s)).Some?
    requires Cell(s.maze, Top(s)).value != s.chars.path && Cell(s.maze, Top(s)).value != s.chars.finish
    ensures r.Continue? || r.Unsolved?
    // the neighbours the expansion of the marked cell pushes go on top of
    // the rest of the stack
    ensures After(r).stack == Pop(s).stack + Expand(b, Put(s.maze, Top(s), s.chars.path), Top(s), s.chars.wall).pushed
    ensures MarksTop(s, After(r))
    ensures GridOther(After(r).maze, s.chars.path) + 1 == GridOther(s.maze, s.chars.path)
  {
    var loc := Top(s);
    var popped := Pop(s);
    PutMarks(s.maze, loc, s.chars.path);
    var g := Put(s.maze, loc, s.chars.path);
    var e := Expand(b, g, loc, s.chars.wall);
    var n := popped.(maze := g, stack := popped.stack + e.pushed);
    assert n.stack[..|s.stack| - 1] == popped.stack;
    assert forall k :: |s.stack| - 1 <= k < |n.stack| ==> n.stack[k] in e.pushed;
    if e.faulted then Unsolved(n) else Continue(n)
  }

  function Step(b: Bounds, s: Solver): (r: StepResult)
    // popping an empty stack raises IndexError: the run ends unsolved
    ensures |s.stack| == 0 ==> r == Unsolved(s)
    // solved exactly when the popped cell holds the finish character; the
    // cell is left as it is
    ensures r.Solved? <==> |s.stack| > 0 && Cell(s.maze, Top(s)) == Some(s.chars.finish)
    ensures r.Solved? ==> r.final == Pop(s)
    // a popped cell that cannot be read raises IndexError: the run ends
    // unsolved with the coordinate popped
    ensures |s.stack| > 0 && Cell(s.maze, Top(s)).None? ==> r == Unsolved(Pop(s))
    // a popped cell already marked is skipped
    ensures |s.stack| > 0 && Cell(s.maze, Top(s)) == Some(s.chars.path) && s.chars.path != s.chars.finish ==>
      r == Continue(Pop(s))
    // marking a readable cell ends the run exactly when a neighbour read of
    // the marked maze raises
    ensures && |s.stack| > 0 && Cell(s.maze, Top(s)).Some?
            && Cell(s.maze, Top(s)).value != s.chars.path && Cell(s.maze, Top(s)).value != s.chars.finish
            ==> (r.Unsolved? <==> Expand(b, Put(s.maze, Top(s), s.chars.path), Top(s), s.chars.wall).faulted)
    // only the popped cell may change, and only to the path character
    ensures OnlyPopped(s, After(r)) || MarksTop(s, After(r))
    ensures r.Continue? ==> Progress(s, r.next)
  {
    if |s.stack| == 0 then Unsolved(s)
    else
      match Cell(s.maze, Top(s))
      case None => Unsolved(Pop(s))
      case Some(ch) =>
        if ch == s.chars.finish then Solved(Pop(s))
        else if ch == s.chars.path then Continue(Pop(s))
        else Mark(b, s)
  }

  /** How the loop ends: `return True` or `return False`, with the instance
      as it is left. */
  datatype Halt = Halt(solved: bool, solver: Solver)

  /** The loop of main.py:130-155 from state `s`. It terminates: every
      iteration marks a cell or shortens the stack. */
  function Loop(b: Bounds, s: Solver): (h: Halt)
    ensures h.solver.chars == s.chars && h.solver.startPos == s.startPos
    decreases GridOther(s.maze, s.chars.path), |s.stack|
  {
    match Step(b, s)
    case Continue(n) => Loop(b, n)
    case Solved(f) => Halt(true, f)
    case Unsolved(f) => Halt(false, f)
  }

  /** `_check_input`: None when reading the start cell raises IndexError
      (outside the `try` of `run`, so the exception escapes), otherwise
      whether the start cell holds the start character. */
  function CheckInput(s: Solver): (ok: Option<bool>)
    ensures ok.None? <==> Locate(s.maze, s.startPos).None?
    ensures ok == Some(true) <==> Cell(s.maze, s.startPos) == Some(s.chars.start)
  {
    match Cell(s.maze, s.startPos)
    case None => None
    case Some(ch) => Some(ch == s.chars.start)
  }

  /** How `run` ends: it returns a value (`Some(true)`, `Some(false)`, or
      `None` when the start check fails and the method falls off its end),
      or an IndexError escapes from `_check_input`. */
  datatype Outcome = Returned(result: Option<bool>, solver: Solver) | Raised(solver: Solver)

  /** `run` (main.py:122-155). */
  function Run(b: Bounds, s: Solver): (o: Outcome)
    // an unreadable start cell raises, a wrong one returns None; either way
    // nothing is pushed and nothing is marked
    ensures o.Raised? <==> Cell(s.maze, s.startPos).None?
    ensures o.Raised? ==> o.solver == s
    ensures Cell(s.maze, s.startPos).Some? && Cell(s.maze, s.startPos).value != s.chars.start ==>
      o == Returned(None, s)
    // a valid start always returns True or False
    ensures Cell(s.maze, s.startPos) == Some(s.chars.start) ==> o.Returned? && o.result.Some?
    ensures o.solver.chars == s.chars && o.solver.startPos == s.startPos
  {
    match CheckInput(s)
    case None => Raised(s)
    case Some(valid) =>
      if !valid then Returned(None, s)
      else
        var h := Loop(b, s.(stack := s.stack + [s.startPos]));
        Returned(Some(h.solved), h.solver)
  }

  /** `run` as the source writes it: a `while` loop over the iterations. */
  method Solve(b: Bounds, s: Solver) returns (o: Outcome)
    ensures o == Run(b, s)
  {
    var ok := CheckInput(s);
    if ok.None? {
      return Raised(s);
    }
    if !ok.value {
      return Returned(None, s);
    }
    var entry := s.(stack := s.stack + [s.startPos]);
    var cur := entry;
    while true
      invariant Loop(b, cur) == Loop(b, entry)
      decreases GridOther(cur.maze, cur.chars.path), |cur.stack|
    {
      match Step(b, cur)
      case Solved(f) =>
        return Returned(Some(true), f);
      case Unsolved(f) =>
        return Returned(Some(false), f);
      case Continue(n) =>
        cur := n;
    }
  }
}

=== FILE: soundness.dfy ===
/** The converse of completeness: under either neighbour test, every cell
    the search visits is reachable from the start, so `run` returns True only
    when a finish cell is reachable. Together with completeness this says
    that the corrected search decides reachability. */
module SearchSoundness {
  import opened Grids
  import opened Config
  import opened Maze
  import opened MazeProperties
  import opened SearchCompleteness

  /** `p` is a route of non-wall cells of `g` from `from` to `to`. */
  predicate RouteBetween(g: Grid, wall: char, from: Coord, to: Coord, p: seq<Coord>)
  {
    Route(g, wall, p) && p[0] == from && p[|p| - 1] == to
  }

  /** `p` is a route of non-wall cells of `g` from `from` to a finish cell. */
  predicate FinishRoute(g: Grid, cs: Sentinels, from: Coord, p: seq<Coord>)
  {
    Route(g, cs.wall, p) && p[0] == from && At(g, p[|p| - 1]) == cs.finish
  }

  /** Some route of non-wall cells of `g` leads from `from` to `to`. */
  ghost predicate Reachable(g: Grid, wall: char, from: Coord, to: Coord)
  {
    exists p :: RouteBetween(g, wall, from, to, p)
  }

  /** Some route of non-wall cells of `g` leads from `from` to a finish cell. */
  ghost predicate FinishReachable(g: Grid, cs: Sentinels, from: Coord)
  {
    exists p :: FinishRoute(g, cs, from, p)
  }

  /** A reachable finish is a finish cell in the maze. */
  lemma ReachableFinishHolds(g: Grid, cs: Sentinels, from: Coord)
    ensures FinishReachable(g, cs, from) ==> Holds(g, cs.finish)
  {
    if FinishReachable(g, cs, from) {
      var p :| FinishRoute(g, cs, from, p);
      var q := p[|p| - 1];
      assert InRange(g, q) && g[q.row][q.col] == cs.finish;
    }
  }

  /** Every stacked coordinate is a cell of `g0` reachable from the start. */
  ghost predicate StackReachable(g0: Grid, s: Solver)
  {
    forall k :: 0 <= k < |s.stack| ==>
      InRange(g0, s.stack[k]) && Reachable(g0, s.chars.wall, s.startPos, s.stack[k])
  }

  /** No wall of `g0` differs in `g`. */
  predicate WallsUntouched(g0: Grid, g: Grid, wall: char)
    requires SameShape(g0, g)
  {
    forall i, j :: 0 <= i < |g0| && 0 <= j < |g0[i]| && g[i][j] != g0[i][j] ==> g0[i][j] != wall
  }

  /** The invariant of the search, relative to the maze `g0` it
      started on: only path marks were added, every stacked coordinate is a
      reachable cell of `g0`, and no wall of `g0` was overwritten. */
  ghost predicate SoundInv(g0: Grid, s: Solver)
  {
    && Trace(g0, s.maze, s.chars.path, s.chars.finish)
    && StackReachable(g0, s)
    && WallsUntouched(g0, s.maze, s.chars.wall)
  }

  /** A route extended by an adjacent non-wall cell is a route. */
  lemma RouteExtend(g: Grid, wall: char, p: seq<Coord>, n: Coord)
    requires Route(g, wall, p) && Adjacent(p[|p| - 1], n)
    requires InRange(g, n) && At(g, n) != wall
    ensures Route(g, wall, p + [n])
    ensures (p + [n])[0] == p[0] && (p + [n])[|p|] == n
  {
    var q := p + [n];
    assert forall i :: 0 <= i < |p| ==> q[i] == p[i];
  }

  /** The top of the stack is an in-range reachable cell that is not a wall. */
  lemma TopSound(g0: Grid, s: Solver)
    requires SoundInv(g0, s) && |s.stack| > 0
    ensures InRange(g0, Top(s)) && InRange(s.maze, Top(s)) && Locate(s.maze, Top(s)) == Some(Top(s))
    ensures Reachable(g0, s.chars.wall, s.startPos, Top(s)) && At(g0, Top(s)) != s.chars.wall
  {
    assert InRange(g0, s.stack[|s.stack| - 1]);
    InRangeShape(g0, s.maze, Top(s));
  }

  /** Marking a reachable cell overwrites no wall. */
  lemma MarkUntouched(g0: Grid, g: Grid, loc: Coord, path: char, wall: char)
    requires SameShape(g0, g) && WallsUntouched(g0, g, wall)
    requires InRange(g0, loc) && At(g0, loc) != wall
    ensures Locate(g, loc) == Some(loc)
    ensures SameShape(g0, Put(g, loc, path)) && WallsUntouched(g0, Put(g, loc, path), wall)
  {
    InRangeShape(g0, g, loc);
  }

  /** An in-range non-wall neighbour of a reachable cell is reachable too. */
  lemma PushedReachable(g0: Grid, g: Grid, wall: char, from: Coord, loc: Coord, e: Coord)
    requires SameShape(g0, g) && WallsUntouched(g0, g, wall)
    requires Reachable(g0, wall, from, loc)
    requires Adjacent(loc, e) && InRange(g, e) && At(g, e) != wall
    ensures InRange(g0, e) && Reachable(g0, wall, from, e)
  {
    InRangeShape(g0, g, e);
    assert At(g0, e) != wall;
    var p :| RouteBetween(g0, wall, from, loc, p);
    RouteExtend(g0, wall, p, e);
    assert RouteBetween(g0, wall, from, e, p + [e]);
  }

  /** The marking branch keeps the invariant. */
  lemma MarkKeepsSound(b: Bounds, g0: Grid, s: Solver)
    requires SoundInv(g0, s) && |s.stack| > 0
    requires Cell(s.maze, Top(s)).Some? && Cell(s.maze, Top(s)).value != s.chars.path
    requires Cell(s.maze, Top(s)).value != s.chars.finish
    ensures SoundInv(g0, After(Mark(b, s)))
  {
    var loc, wall := Top(s), s.chars.wall;
    TopSound(g0, s);
    MarkUntouched(g0, s.maze, loc, s.chars.path, wall);
    var g := Put(s.maze, loc, s.chars.path);
    InRangeShape(s.maze, g, loc);
    ExpandInRange(b, g, loc, wall);
    var pushed := Expand(b, g, loc, wall).pushed;
    var n := After(Mark(b, s));
    assert n == Pop(s).(maze := g, stack := Pop(s).stack + pushed);
    StepTrace(b, s);
    TraceTrans(g0, s.maze, n.maze, s.chars.path, s.chars.finish);
    assert StackReachable(g0, n) by {
      forall k | 0 <= k < |n.stack|
        ensures InRange(g0, n.stack[k]) && Reachable(g0, wall, n.startPos, n.stack[k])
      {
        if k < |Pop(s).stack| {
          assert n.stack[k] == s.stack[k];
        } else {
          assert n.stack[k] in pushed;
          PushedReachable(g0, g, wall, s.startPos, loc, n.stack[k]);
        }
      }
    }
  }

  /** One iteration that continues keeps the invariant. */
  lemma StepKeepsSound(b: Bounds, g0: Grid, s: Solver)
    requires SoundInv(g0, s) && Step(b, s).Continue?
    ensures SoundInv(g0, Step(b, s).next)
  {
    var loc := Top(s);
    TopSound(g0, s);
    if At(s.maze, loc) == s.chars.path {
      var n := Pop(s);
      assert Step(b, s).next == n;
      assert StackReachable(g0, n) by {
        forall k | 0 <= k < |n.stack|
          ensures InRange(g0, n.stack[k]) && Reachable(g0, n.chars.wall, n.startPos, n.stack[k])
        {
          assert n.stack[k] == s.stack[k];
        }
      }
    } else {
      MarkKeepsSound(b, g0, s);
    }
  }

  /** Whenever the loop succeeds, a finish cell of `g0` is reachable from
      the start. */
  lemma {:induction false} LoopSound(b: Bounds, g0: Grid, s: Solver)
    requires SoundInv(g0, s) && s.chars.path != s.chars.finish
    ensures Loop(b, s).solved ==> FinishReachable(g0, s.chars, s.startPos)
    decreases GridOther(s.maze, s.chars.path), |s.stack|
  {
    match Step(b, s)
    case Continue(n) =>
      StepKeepsSound(b, g0, s);
      LoopSound(b, g0, n);
    case Solved(_) =>
      var loc := Top(s);
      TopSound(g0, s);
      var p :| RouteBetween(g0, s.chars.wall, s.startPos, loc, p);
      assert FinishRoute(g0, s.chars, s.startPos, p);
    case Unsolved(_) =>
  }

  /** The state the loop starts from satisfies the invariant. */
  lemma EntrySound(s: Solver)
    requires |s.stack| == 0 && InRange(s.maze, s.startPos) && At(s.maze, s.startPos) != s.chars.wall
    ensures SoundInv(s.maze, s.(stack := [s.startPos]))
  {
    var entry := s.(stack := [s.startPos]);
    assert RouteBetween(s.maze, s.chars.wall, s.startPos, s.startPos, [s.startPos]);
    assert StackReachable(s.maze, entry);
  }

  /** Soundness of the search, as written and corrected alike: on a fresh
      stack and an in-range start whose character is not the wall character,
      `run` returns True only when some route of non-wall cells leads from
      the start to a finish cell. */
  lemma RunSound(b: Bounds, s: Solver)
    requires |s.stack| == 0 && InRange(s.maze, s.startPos)
    requires s.chars.wall != s.chars.start && s.chars.path != s.chars.finish
    requires Run(b, s) == Returned(Some(true), Run(b, s).solver)
    ensures FinishReachable(s.maze, s.chars, s.startPos)
  {
    assert Locate(s.maze, s.startPos) == Some(s.startPos);
    assert s.stack + [s.startPos] == [s.startPos];
    EntrySound(s);
    LoopSound(b, s.maze, s.(stack := [s.startPos]));
  }

  /** With distinct sentinels, as `SetCharDistinct` keeps them from the
      defaults on, `run` under either test returns True only when a finish
      cell is reachable from an in-range start. */
  lemma DistinctRunSound(b: Bounds, s: Solver)
    requires |s.stack| == 0 && InRange(s.maze, s.startPos) && Distinct(s.chars)
    requires Run(b, s) == Returned(Some(true), Run(b, s).solver)
    ensures FinishReachable(s.maze, s.chars, s.startPos)
  {
    RunSound(b, s);
  }

  /** The first run of a freshly constructed solver, under either test,
      returns True only when a finish cell is reachable from an in-range
      start: the default sentinels are distinct. */
  lemma FreshRunSound(b: Bounds, startPos: Coord, maze: Grid)
    requires InRange(maze, startPos)
    requires Run(b, New(startPos, maze)) == Returned(Some(true), Run(b, New(startPos, maze)).solver)
    ensures FinishReachable(maze, Defaults, startPos)
  {
    DistinctRunSound(b, New(startPos, maze));
  }

  /** The corrected search decides reachability: from a fresh solver on a
      maze with no cell marked yet and a valid in-range start, `run` returns
      True exactly when a finish cell is reachable from the start through
      non-wall cells. */
  lemma CheckedRunDecides(s: Solver)
    requires |s.stack| == 0 && !Holds(s.maze, s.chars.path)
    requires InRange(s.maze, s.startPos) && At(s.maze, s.startPos) == s.chars.start
    requires s.chars.path != s.chars.wall && s.chars.path != s.chars.finish && s.chars.wall != s.chars.start
    ensures Run(Checked, s) == Returned(Some(true), Run(Checked, s).solver)
        <==> FinishReachable(s.maze, s.chars, s.startPos)
  {
    if Run(Checked, s) == Returned(Some(true), Run(Checked, s).solver) {
      RunSound(Checked, s);
    }
    if FinishReachable(s.maze, s.chars, s.startPos) {
      var p :| FinishRoute(s.maze, s.chars, s.startPos, p);
      CheckedRunFindsReachableFinish(s, p);
    }
  }
}

=== FILE: text.dfy ===
/** Converting between a grid and text: `toString` and the line handling of
    the file-loading constructor. Opening the file is not modelled; the text
    it holds is a parameter. */
module Text {
  import opened Grids

  /** `toString`: every row's characters followed by a newline, rows in order. */
  function Render(g: Grid): string
  {
    if |g| == 0 then "" else g[0] + "\n" + Render(g[1..])
  }

  /** Total number of cells. */
  function CellCount(g: Grid): nat
  {
    if |g| == 0 then 0 else |g[0]| + CellCount(g[1..])
  }

  /** `get_height`: the number of rows; it is zero exactly when `get_width`
      raises. */
  function Height(g: Grid): (h: nat)
    ensures h == 0 <==> Width(g).None?
  {
    |g|
  }

  /** `get_width`: the length of the first row; an empty maze raises
      IndexError, modelled as None. */
  function Width(g: Grid): (w: Option<nat>)
    ensures w.Some? <==> |g| > 0
  {
    if |g| == 0 then None else Some(|g[0]|)
  }

  predicate Rectangular(g: Grid, w: nat)
  {
    forall i :: 0 <= i < |g| ==> |g[i]| == w
  }

  predicate NoNewline(line: string)
  {
    '\n' !in line
  }

  function Concat(lines: seq<string>): string
  {
    if |lines| == 0 then "" else lines[0] + Concat(lines[1..])
  }

  /** Index of the first newline of `s` at or after `i`, or |s| when there
      is none. */
  function NewlineFrom(s: string, i: nat): (k: nat)
    requires i <= |s|
    ensures i <= k <= |s|
    ensures k < |s| ==> s[k] == '\n'
    ensures NoNewline(s[i..k])
    decreases |s| - i
  {
    if i == |s| || s[i] == '\n' then i
    else
      var k := NewlineFrom(s, i + 1);
      assert s[i..k] == [s[i]] + s[i + 1..k];
      k
  }

  /** Index of the first newline of `s`, or |s| when it has none. */
  function FirstNewline(s: string): (k: nat)
    ensures k <= |s|
    ensures k < |s| ==> s[k] == '\n'
    ensures NoNewline(s[..k])
  {
    assert s[..NewlineFrom(s, 0)] == s[0..NewlineFrom(s, 0)];
    NewlineFrom(s, 0)
  }

  /** Python's `readlines`: the text cut after every newline, each line
      keeping its newline; a last line without one is kept as it is. */
  function ReadLines(text: string): seq<string>
    decreases |text|
  {
    if |text| == 0 then []
    else
      var k := NewlineFrom(text, 0);
      if k == |text| then [text] else [text[..k + 1]] + ReadLines(text[k + 1..])
  }

  /** `line` ends with a newline and holds no other. */
  predicate EndsLine(line: string)
  {
    |line| > 0 && line[|line| - 1] == '\n' && NoNewline(line[..|line| - 1])
  }

  /** Lines as `readlines` cuts them: none empty, none holding a newline
      before its last character, and each but the last ending with a
      newline. */
  predicate WellCut(lines: seq<string>)
  {
    && (forall i :: 0 <= i < |lines| ==> |lines[i]| > 0 && NoNewline(lines[i][..|lines[i]| - 1]))
    && (forall i :: 0 <= i < |lines| - 1 ==> EndsLine(lines[i]))
  }

  lemma ConcatCons(line: string, rest: seq<string>)
    ensures Concat([line] + rest) == line + Concat(rest)
  {
    assert ([line] + rest)[1..] == rest;
  }

  lemma WellCutCons(line: string, rest: seq<string>)
    requires EndsLine(line) && WellCut(rest)
    ensures WellCut([line] + rest)
  {
    var lines := [line] + rest;
    forall i | 0 < i < |lines|
      ensures lines[i] == rest[i - 1]
    {
    }
  }

  /** `readlines` splits off the first line, newline included. */
  lemma ReadLinesFirst(text: string, k: nat)
    requires k == FirstNewline(text) && k < |text|
    ensures ReadLines(text) == [text[..k + 1]] + ReadLines(text[k + 1..])
  {
  }

  /** The first line of text holding a newline ends with its only newline. */
  lemma FirstLineEnds(text: string, k: nat)
    requires k == FirstNewline(text) && k < |text|
    ensures EndsLine(text[..k + 1])
  {
    assert text[..k + 1][..k] == text[..k];
  }

  /** A last line without a newline is well cut on its own. */
  lemma LastLineCut(line: string)
    requires |line| > 0 && NoNewline(line)
    ensures WellCut([line])
  {
    var init := line[..|line| - 1];
    assert forall c :: c in init ==> c in line;
  }

  /** The lines of `readlines` concatenate back to the text, and are cut
      at the newlines. */
  lemma {:induction false} ReadLinesSpec(text: string)
    ensures Concat(ReadLines(text)) == text
    ensures WellCut(ReadLines(text))
    decreases |text|
  {
    if |text| > 0 {
      var k := FirstNewline(text);
      if k == |text| {
        assert text[..k] == text;
        assert ReadLines(text) == [text];
        ConcatCons(text, []);
        LastLineCut(text);
      } else {
        var rest := text[k + 1..];
        ReadLinesSpec(rest);
        ReadLinesFirst(text, k);
        ConcatCons(text[..k + 1], ReadLines(rest));
        FirstLineEnds(text, k);
        WellCutCons(text[..k + 1], ReadLines(rest));
        assert text == text[..k + 1] + rest;
      }
    }
  }

  /** `line.replace("\n", "")`. */
  function RemoveNewlines(line: string): (r: string)
    ensures NoNewline(r)
    ensures NoNewline(line) ==> r == line
  {
    DropNewlinesSpec(line);
    DropNewlines(line)
  }

  /** The character-by-character filter behind `RemoveNewlines`. */
  function DropNewlines(line: string): string
  {
    if |line| == 0 then ""
    else (if line[0] == '\n' then "" else [line[0]]) + DropNewlines(line[1..])
  }

  lemma {:induction false} DropNewlinesSpec(line: string)
    ensures NoNewline(DropNewlines(line))
    ensures NoNewline(line) ==> DropNewlines(line) == line
  {
    if |line| > 0 {
      DropNewlinesSpec(line[1..]);
      assert line == [line[0]] + line[1..];
    }
  }

  /** Every line with its newlines removed (main.py:21). */
  function StripLines(lines: seq<string>): (g: Grid)
    ensures |g| == |lines|
    ensures forall i :: 0 <= i < |g| ==> g[i] == RemoveNewlines(lines[i])
    ensures forall i :: 0 <= i < |g| ==> NoNewline(g[i])
  {
    if |lines| == 0 then [] else [RemoveNewlines(lines[0])] + StripLines(lines[1..])
  }

  /** The grid the constructor builds from the file's text (main.py:20-21). */
  function Load(text: string): Grid
  {
    StripLines(ReadLines(text))
  }

  /** Rendering has one character per cell plus one newline per row. */
  lemma {:induction false} RenderLength(g: Grid)
    ensures |Render(g)| == CellCount(g) + Height(g)
  {
    if |g| > 0 {
      RenderLength(g[1..]);
    }
  }

  lemma {:induction false} CellCountRectangular(g: Grid, w: nat)
    requires Rectangular(g, w)
    ensures CellCount(g) == |g| * w
  {
    if |g| > 0 {
      CellCountRectangular(g[1..], w);
    }
  }

  /** On a rectangular maze, the rendering is `get_height` lines of
      `get_width` characters plus a newline each. */
  lemma {:induction false} RenderRectangular(g: Grid)
    requires Width(g).Some? && Rectangular(g, Width(g).value)
    ensures |Render(g)| == Height(g) * (Width(g).value + 1)
  {
    RenderLength(g);
    CellCountRectangular(g, Width(g).value);
  }

  /** Loading a rendered maze gives back the maze, provided no cell holds a
      newline (the loader strips every newline). */
  lemma {:induction false} LoadRender(g: Grid)
    requires forall i :: 0 <= i < |g| ==> NoNewline(g[i])
    ensures Load(Render(g)) == g
  {
    if |g| > 0 {
      var text := Render(g);
      var k := FirstNewline(text);
      assert text == g[0] + ("\n" + Render(g[1..]));
      assert text[|g[0]|] == '\n';
      assert k == |g[0]|;
      assert text[..k + 1] == g[0] + "\n";
      assert text[k + 1..] == Render(g[1..]);
      LoadRender(g[1..]);
      var lines := ReadLines(text);
      assert lines == [g[0] + "\n"] + ReadLines(Render(g[1..]));
      assert RemoveNewlines(g[0] + "\n") == g[0] by {
        RemoveNewlinesAppend(g[0], "\n");
      }
    }
  }

  lemma {:induction false} DropNewlinesAppend(a: string, b: string)
    ensures DropNewlines(a + b) == DropNewlines(a) + DropNewlines(b)
  {
    if |a| > 0 {
      assert (a + b)[0] == a[0] && (a + b)[1..] == a[1..] + b;
      DropNewlinesAppend(a[1..], b);
    } else {
      assert a + b == b;
    }
  }

  lemma RemoveNewlinesAppend(a: string, b: string)
    ensures RemoveNewlines(a + b) == RemoveNewlines(a) + RemoveNewlines(b)
  {
    DropNewlinesAppend(a, b);
  }



  lemma StripLinesCons(line: string, rest: seq<string>)
    ensures StripLines([line] + rest) == [RemoveNewlines(line)] + StripLines(rest)
  {
    assert ([line] + rest)[1..] == rest;
  }

  /** Removing the newlines of a line ending in its only newline. */
  lemma RemoveNewlinesLine(line: string)
    requires NoNewline(line)
    ensures RemoveNewlines(line + "\n") == line
  {
    RemoveNewlinesAppend(line, "\n");
    assert RemoveNewlines("\n") == "";
  }

  /** Loading text whose first line ends at index `k`. */
  lemma LoadFirstLine(text: string, k: nat)
    requires k == FirstNewline(text) && k < |text|
    ensures Load(text) == [text[..k]] + Load(text[k + 1..])
  {
    var head := text[..k + 1];
    ReadLinesFirst(text, k);
    assert head == text[..k] + "\n";
    RemoveNewlinesLine(text[..k]);
    StripLinesCons(head, ReadLines(text[k + 1..]));
  }

  /** The first newline comes no later than any newline. */
  lemma {:induction false} NewlineFromBefore(s: string, i: nat, j: nat)
    requires i <= j < |s| && s[j] == '\n'
    ensures NewlineFrom(s, i) <= j
    decreases j - i
  {
    if i < j && s[i] != '\n' {
      NewlineFromBefore(s, i + 1, j);
    }
  }

  lemma RenderCons(line: string, g: Grid)
    ensures Render([line] + g) == line + "\n" + Render(g)
  {
    assert ([line] + g)[1..] == g;
  }

  /** Text cut around a newline at index `k`. */
  lemma SplitAtNewline(text: string, k: nat)
    requires k < |text| && text[k] == '\n'
    ensures text == text[..k] + "\n" + text[k + 1..]
  {
  }

  /** Rendering a freshly loaded maze reproduces the file's text, when the
      text ends with a newline (or is empty). */
  lemma {:induction false} RenderLoad(text: string)
    requires |text| == 0 || text[|text| - 1] == '\n'
    ensures Render(Load(text)) == text
    decreases |text|
  {
    if |text| > 0 {
      var k := FirstNewline(text);
      NewlineFromBefore(text, 0, |text| - 1);
      var rest := text[k + 1..];
      assert |rest| == 0 || rest[|rest| - 1] == text[|text| - 1];
      RenderLoad(rest);
      LoadFirstLine(text, k);
      RenderCons(text[..k], Load(rest));
      SplitAtNewline(text, k);
    }
  }

  /** The text `toString` produces for a loaded maze: the text itself when
      it ends with a newline (or is empty), else the text with one added. */
  function Terminated(text: string): string
  {
    if |text| == 0 || text[|text| - 1] == '\n' then text else text + "\n"
  }

  /** A text without a newline loads as one row, rendered with a newline
      added. */
  lemma RenderLoadLast(text: string)
    requires |text| > 0 && FirstNewline(text) == |text|
    ensures Render(Load(text)) == Terminated(text)
  {
    assert text[..|text|] == text;
    assert ReadLines(text) == [text];
    StripLinesCons(text, []);
    RenderCons(text, []);
    assert text[|text| - 1] in text;
  }

  /** Cutting the first line keeps the added newline where it was. */
  lemma TerminatedSplit(text: string, k: nat)
    requires k < |text| && text[k] == '\n'
    ensures Terminated(text) == text[..k] + "\n" + Terminated(text[k + 1..])
  {
    var rest := text[k + 1..];
    SplitAtNewline(text, k);
    if |rest| > 0 {
      assert rest[|rest| - 1] == text[|text| - 1];
      if rest[|rest| - 1] != '\n' {
        assert text + "\n" == text[..k] + "\n" + (rest + "\n");
      }
    }
  }

  /** Rendering a freshly loaded maze reproduces any text, up to a newline
      added after a last line that lacks one. */
  lemma {:induction false} RenderLoadAll(text: string)
    ensures Render(Load(text)) == Terminated(text)
    decreases |text|
  {
    if |text| > 0 {
      var k := FirstNewline(text);
      if k == |text| {
        RenderLoadLast(text);
      } else {
        var rest := text[k + 1..];
        RenderLoadAll(rest);
        LoadFirstLine(text, k);
        RenderCons(text[..k], Load(rest));
        TerminatedSplit(text, k);
      }
    }
  }

  /** The number of newlines in `s`. */
  function Newlines(s: string): nat
  {
    if |s| == 0 then 0 else (if s[0] == '\n' then 1 else 0) + Newlines(s[1..])
  }

  lemma {:induction false} NewlinesAppend(a: string, b: string)
    ensures Newlines(a + b) == Newlines(a) + Newlines(b)
  {
    if |a| > 0 {
      assert (a + b)[0] == a[0] && (a + b)[1..] == a[1..] + b;
      NewlinesAppend(a[1..], b);
    } else {
      assert a + b == b;
    }
  }

  lemma {:induction false} NewlinesNone(s: string)
    requires NoNewline(s)
    ensures Newlines(s) == 0
  {
    if |s| > 0 {
      assert forall i :: 0 <= i < |s| - 1 ==> s[1..][i] == s[i + 1];
      NewlinesNone(s[1..]);
    }
  }

  /** A rendering holds one newline per row, when no cell is a newline. */
  lemma {:induction false} NewlinesRender(g: Grid)
    requires forall i :: 0 <= i < |g| ==> NoNewline(g[i])
    ensures Newlines(Render(g)) == Height(g)
  {
    if |g| > 0 {
      NewlinesRender(g[1..]);
      NewlinesNone(g[0]);
      NewlinesAppend(g[0], "\n");
      NewlinesAppend(g[0] + "\n", Render(g[1..]));
    }
  }

  /** The number of lines of a text: one per newline, plus a last line that
      lacks one. */
  function LineCount(text: string): nat
  {
    Newlines(text) + if |text| == 0 || text[|text| - 1] == '\n' then 0 else 1
  }

  /** After loading, `get_height` counts the file's lines. */
  lemma LoadHeight(text: string)
    ensures Height(Load(text)) == LineCount(text)
  {
    RenderLoadAll(text);
    NewlinesRender(Load(text));
    if |text| > 0 && text[|text| - 1] != '\n' {
      NewlinesAppend(text, "\n");
    }
  }
}
